=== FILE: README.md ===
# rebrickable-data core, modelled in Dafny

This project models the computational core of the rebrickable-data tools:

- **The two frontier algorithms of `src/knapsack.rs`.** Both run over a sparse inventory × part matrix.
  - `greedy` removes parts one by one, least-required first. After each removal it records how many inventories can still be built.
  - `dynamic_programming` ranks the parts most-required first. For every budget `n` it counts the inventories whose parts all lie among the first `n` ranked parts.
- **The record-to-matrix builder of `src/inventory_parts.rs`.** It reads the "True"/"False" spare flag, drops spare records, sums quantities per (inventory id, part number), assigns dense row and column indices, and emits one triplet per grouped key.
- **The colour input and output of `src/colors.rs`.** The decoder turns six hex digits into an sRGB colour (`deserialize_hex_color`). The writer produces the line format of `color_id_mapping.csv` (`write_color_id_mapping`).

Modules:

| file | module | contents |
|---|---|---|
| results.dfy | `Results` | `Option` and `Result` |
| sets.dfy | `Sets` | distinctness and cardinality facts |
| incidence.dfy | `Incidence` | the sparse matrix as its set of stored positions; column rows, row parts, occupancy, empty columns, valid rows |
| ranking.dfy | `Ranking` | the stable frequency sort of the part indices, ascending for `greedy` and descending for `dynamic_programming` |
| greedy.dfy | `Greedy` | `greedy`: the removal loop, the early exit and the reversed table |
| selection.dfy | `Selection` | `dynamic_programming`: the valid-row filter and the per-budget count |
| inventory.dfy | `InventoryParts` | the spare filter, group-sum, index maps and triplets |
| decimal.dfy | `Decimal` | decimal formatting of integers, as Rust's `{}` prints them, and its inverse |
| colors.dfy | `Colors` | the hex colour decoder and the colour-id mapping lines |

**The matrix.** Both algorithms first map every stored value to 1 or 0 and then only count stored entries (`nnz`) per column. Stored zeros stay stored. So the model keeps only the set of stored positions (`Incidence.Matrix`), and occupancy is the number of stored rows in a column.

**The stable sort.** `sort_by` is stable, so it orders the indices `0..cols` by frequency and breaks ties by index. `Ranking.PartOrder` is that order. `Ranking.SortedPermutationUnique` shows that this order is unique, whichever sorting algorithm produces it.

**Greedy count: the code differs from the documented intent.** The documented intent is that the first greedy entry counts the inventories that need at least one part. The code instead computes `rows - #(empty outer vectors)` on a CSC matrix (src/knapsack.rs:50). The outer vectors of a CSC matrix are columns. So the initial count subtracts the number of parts that no inventory uses, not the number of inventories that use no part. This model follows the code:

- `Greedy.Buildable` is `rows - #empty columns - #lost inventories`.
- `Greedy.LastEntryCountsEmptyRows` shows that the entry recorded after every part is gone is, plus the number of empty columns, the number of inventories that need no part. `Greedy.EmptyRowStaysCounted` is a two-inventory example, `Matrix(2, 1, {(0, 0)})`, where that entry is 1 rather than 0.
- `Greedy.FrontierEndpoints` shows that the two readings agree on the matrices the builder produces. Those matrices have no empty rows or columns.

The greedy members require `Greedy.Defined`: empty columns + valid inventories ≤ rows. The condition is sufficient: under it, neither `usize` subtraction (:50 and :68) can go below zero. It is not necessary. On some matrices outside it the early exit (:71-76) fires before :68 would go below zero, so the source runs to completion. `Greedy.NoEmptyColumnsDefined` shows that every matrix without empty columns satisfies it, and the builder produces only such matrices.

**HashMap order.** `quantity_map` is a Rust `HashMap`, so the order in which it is enumerated is arbitrary. The source enumerates it twice: once in the index loop (:76) and once in the triplet loop (:119). The model takes each enumeration as its own parameter, `keys` and `entries`. Each can be any duplicate-free listing of the map's keys, and the two need not agree. Every property is proved for every pair of orders.

**Panics.** A string slice `&hex[i..j]` panics when it runs past the end or cuts a multi-byte character. The model does not exclude those inputs with a precondition. Instead it reports them as the outcome `Colors.SlicePanic`, so `Colors.DecodeHexColor` is total. A slice that exists but spells no byte is the error the source returns, `Colors.InvalidChannel`. The contract of `Colors.DecodeHexColor` states, for each of the three channels, exactly when each of the two outcomes occurs.

## Model

| member | source | states |
|---|---|---|
| Incidence.ValidRowsAreColumnRows | src/knapsack.rs:112-122 | an inventory gets a non-empty part list from the column walk exactly when some column stores it, so the valid inventories are the rows with a stored entry |
| Incidence.NoEmptyColumnsCount | src/knapsack.rs:50 | without empty columns, the count subtracted at the start is zero |
| Ranking.PartOrder | src/knapsack.rs:33-40 | the part order is a permutation of `0..cols` sorted by column occupancy in the given direction, with ties kept in ascending index order (stable sort) |
| Ranking.SortedPermutationUnique | src/knapsack.rs:40 | two duplicate-free orders of the same parts, both sorted by (frequency, index), are equal, so the stable sort's result is determined |
| Greedy.NoEmptyColumnsDefined | src/knapsack.rs:50-68 | a matrix without empty columns satisfies the precondition that keeps both subtractions non-negative |
| Greedy.LostMembers | src/knapsack.rs:55-65 | an inventory is in the visited set exactly when it stores an entry in one of the removed columns |
| Greedy.LostWithinValid | src/knapsack.rs:59-64 | only inventories that need some part are ever marked |
| Greedy.LostGrows | src/knapsack.rs:44 | removing more parts never unmarks an inventory |
| Greedy.BuildableNonIncreasing | src/knapsack.rs:66-68 | the buildable count never increases as parts are removed |
| Greedy.ZeroPersists | src/knapsack.rs:71-76 | once nothing is buildable, nothing becomes buildable after further removals, which justifies the early exit |
| Greedy.FillExhausted | src/knapsack.rs:71-76 | the early-exit fill completes the table to `cols + 1` entries that agree with the full simulation at every `k` |
| Greedy.RemovalFrontier | src/knapsack.rs:42-78 | for any removal order, the result has `cols + 1` entries; the first is `(cols, rows - #empty columns)` and entry `k` is `(cols - k, count after removing the first k parts)`, whether or not the early exit fires |
| Greedy.GreedyFrontier | src/knapsack.rs:21-78 | the same for the ascending-frequency order the source computes |
| Greedy.IntactCount | src/knapsack.rs:55-69 | after removing a prefix of a full removal order, the inventories whose parts all remain are the rows that were not marked |
| Greedy.BuildableCountsIntactInventories | src/knapsack.rs:50-68 | the recorded count plus the number of empty columns is the number of inventories whose required parts all remain |
| Greedy.FrontierEndpoints | src/knapsack.rs:48-76 | on a matrix with no empty rows or columns, the first entry counts every inventory and the last counts none |
| Greedy.LastEntryCountsEmptyRows | src/knapsack.rs:50-76 | the last entry plus the number of empty columns is the number of inventories that need no part |
| Greedy.EmptyRowStaysCounted | src/knapsack.rs:50 | for the matrix `Matrix(2, 1, {(0, 0)})`, with one inventory that needs no part, the last entry is 1 rather than 0 |
| Greedy.WrittenTableAscends | src/knapsack.rs:87-90 | the reversed table written to the file runs from 0 remaining parts up to `cols`, and its buildable column never decreases |
| Selection.SelectedNested | src/knapsack.rs:145-149 | the parts selected for budget `n` are among those selected for any larger budget, and budget `n + 1` adds exactly the `n`-th ranked part |
| Selection.BuildableMonotone | src/knapsack.rs:142-161 | the per-budget count never decreases as the budget grows |
| Selection.NothingBuildableWithoutParts | src/knapsack.rs:151-157 | with budget 0, no valid inventory is buildable |
| Selection.EverythingBuildableWithAllParts | src/knapsack.rs:119-122 | with every part selected, the count is the number of valid inventories |
| Selection.ValidInventories | src/knapsack.rs:119-122 | `valid_inventories` lists exactly the inventories with a non-empty part list, in strictly ascending order |
| Selection.CountBuildable | src/knapsack.rs:151-157 | the filter-count over the valid inventories equals the number of inventories that need a part and have all their parts selected |
| Selection.RankedFrontier | src/knapsack.rs:142-161 | for any ranking, entry `n` is `(n, number of valid inventories whose parts lie in the first n ranked parts)` for `n = 0..=cols` in order |
| Selection.SelectionFrontier | src/knapsack.rs:100-161 | the same for the descending-frequency ranking the source computes |
| InventoryParts.DeserializeBool | src/inventory_parts.rs:22-32 | the text is accepted exactly when it is "True" or "False", and it reads as true exactly when it is "True" |
| InventoryParts.FlagRoundTrip | src/inventory_parts.rs:27-29 | every flag, spelled as the input file spells it, reads back as itself |
| InventoryParts.NonSpare | src/inventory_parts.rs:53-55 | the filtered records are exactly the non-spare input records |
| InventoryParts.NonSpareMultiplicity | src/inventory_parts.rs:53-55 | each non-spare record is kept exactly as often as it occurs in the input, and no spare record is kept |
| InventoryParts.NonSpareAppend | src/inventory_parts.rs:53-55 | the spare filter distributes over concatenation of the input |
| InventoryParts.GroupSumIsKeyTotal | src/inventory_parts.rs:60-65 | grouping spare-free records gives one entry per distinct key, valued at the key's total quantity |
| InventoryParts.KeyTotalIgnoresSpares | src/inventory_parts.rs:53-55 | a key's total quantity is the same before and after spare records are dropped |
| InventoryParts.QuantityMapContents | src/inventory_parts.rs:52-65 | the keys of `quantity_map` are exactly the keys of non-spare records, and each value is the sum of those records' quantities |
| InventoryParts.SpareRecordIgnored | src/inventory_parts.rs:52-65 | inserting a spare record anywhere in the input leaves `quantity_map` unchanged |
| InventoryParts.EnumerationIsBijection | src/inventory_parts.rs:70-88 | an id list and index map that enumerate a set list every element once and have the set's size |
| InventoryParts.Intern | src/inventory_parts.rs:78-87 | a new value gets the next free index and is appended; a known value changes nothing; the enumeration stays a bijection |
| InventoryParts.BuildIndexMaps | src/inventory_parts.rs:70-88 | for every enumeration order, the row and column lists and their index maps are bijections between the distinct ids or part numbers and `0..len`, with `list[index[x]] == x` |
| InventoryParts.EmitTriplets | src/inventory_parts.rs:116-123 | triplet `i` sits at the row of key `i`'s inventory id and the column of its part number, and carries that key's quantity |
| InventoryParts.PositionsDistinct | src/inventory_parts.rs:119-123 | distinct keys are stored at distinct positions |
| InventoryParts.TripletMatrixShape | src/inventory_parts.rs:116-123 | every triplet lies inside the matrix, and every row and every column receives a triplet |
| InventoryParts.BuildInventoryMatrix | src/inventory_parts.rs:52-123 | for any duplicate-free orders of the grouped keys, separate for the index loop and the triplet loop: the row list has each inventory id once; the column list has each part number once; there is one triplet per `quantity_map` key, at that key's row and column, carrying its summed quantity; no two triplets share a position; no row or column is empty |
| Colors.ChannelOutcome | src/colors.rs:18-20 | one channel panics exactly when its slice cannot be taken, is rejected exactly when the slice exists but spells no byte, and otherwise yields the byte it spells |
| Colors.ParseU8Hex | src/colors.rs:18-20 | a two-byte slice parses to `v` exactly when it is two hex digits of value `v`, or '+' and one hex digit of value `v` |
| Colors.DecodeHexColor | src/colors.rs:13-22 | decoding succeeds exactly when bytes 0..2, 2..4 and 4..6 can be sliced and each spells a byte, and the red, green and blue channels are those bytes. Otherwise the first failing channel decides the outcome. The result is `SlicePanic(s)` exactly when the earlier channels read and slice `s` cannot be taken. It is `InvalidChannel(s)` exactly when the earlier channels read and slice `s` exists but spells no byte |
| Colors.ShortInputRejected | src/colors.rs:18-20 | fewer than six bytes never decode, and fewer than two panic at the first slice |
| Colors.AsciiChannelsSliceable | src/colors.rs:18-20 | six ASCII bytes followed by a character start can always be sliced, so decoding either succeeds or reports an invalid channel, never a panic |
| Colors.OnlySixBytesRead | src/colors.rs:18-20 | when byte 6 starts a character, the bytes after the sixth do not affect the result |
| Colors.HexRoundTrip | src/colors.rs:13-22 | the six-digit hex spelling of any colour, in either letter case and followed by anything that starts a new character, decodes to that colour |
| Colors.SignedChannelsAccepted | src/colors.rs:18-20 | "+A+B+C" decodes to (10, 11, 12), because `from_str_radix` accepts a leading '+' |
| Colors.SplitUnlines | src/colors.rs:76-80 | splitting the written text at line breaks gives back the written lines |
| Colors.LineReadsBack | src/colors.rs:79 | a data line reads back as its matrix index and colour id |
| Colors.MappingTextReadsBack | src/colors.rs:74-83 | the text written reads back as the header followed by `(i, colors[i].id)` for every colour in order |
| Decimal.NatRoundTrip | src/colors.rs:79 | the decimal spelling of a matrix index parses back to that index |
| Decimal.IntRoundTrip | src/colors.rs:79 | the decimal spelling of a colour id, with a '-' for negative ids, parses back to that id |

## Left out

- File and CSV input and output are not modelled. This covers reading inventory_parts.csv and colors.csv, writing graph_data.csv, dp_graph_data.csv and the row and column mapping files, `create_dir_all`, and the progress messages. The model works on the records and returns the rows those writers would emit.
- Matrix Market reading and writing and the sprs format conversions (`read_matrix_market`, `to_csc`, `to_csr`, `write_matrix_market`) are not modelled. The matrix is its set of stored positions.
- The rayon parallel map in `dynamic_programming` is modelled as a sequential loop over the budgets. The parallel version collects results in index order, so the result is the same.
- The `f64` part score in `dynamic_programming` is modelled as the natural-number occupancy. It is an exact integer count, so `partial_cmp` never fails and orders the scores as integers.
- The Lab conversion, the CIEDE2000 distance matrix and its Matrix Market output in src/colors.rs are not modelled. They are floating-point work inside a colour library.
- The text of the serde error messages is not modelled. The model keeps only which slice failed and why.
- The Python download script and the command-line dispatch in src/main.rs are not modelled. They are network and argument handling only.
- Greedy.GreedyFrontier: requires `Greedy.Defined`, a sufficient condition that rules out every `usize` underflow. Some matrices outside it also run to completion in the source, because the early exit fires first. The model says nothing about them, nor about the underflow itself: a panic in debug builds and wrap-around in release builds. Matrices without empty columns always satisfy `Defined`.
- Greedy.RemovalFrontier: requires `Greedy.Defined`, for the same reason.
- InventoryParts.QuantityMapContents: sums quantities as unbounded integers. The source adds them as `i32`, so a running sum above 2^31 - 1 or below -2^31 overflows there. Quantities can be negative, so the lower bound matters too. The overflow panics in debug builds and wraps in release builds.
- InventoryParts.BuildInventoryMatrix: same unbounded quantity sums and unbounded `i32` inventory ids.
- Colors.MappingTextReadsBack: colour ids are unbounded integers rather than `i32`. Their decimal spelling is the same in the `i32` range.

=== FILE: colors.dfy ===
/**
 * The hex colour decoder and the colour-id mapping writer of src/colors.rs.
 *
 * `deserialize_hex_color` slices the UTF-8 text of the `rgb` column at
 * bytes 0..2, 2..4 and 4..6 and parses each slice with
 * `u8::from_str_radix(_, 16)`.  The input is modelled as its UTF-8 bytes.
 * A slice that runs past the end or cuts a multi-byte character makes Rust
 * panic; the model reports that as the outcome `SlicePanic` instead of
 * excluding such inputs.
 */
module Colors {
  import opened Results
  import opened Decimal

  newtype byte = x: int | 0 <= x < 256

  const PLUS: byte := 0x2B

  /** An sRGB colour with 8-bit channels. */
  datatype Rgb = Rgb(red: byte, green: byte, blue: byte)

  /** Why decoding stopped, with the byte offset of the failing slice. */
  datatype HexError =
    | InvalidChannel(start: nat)  // `from_str_radix` rejected the slice
    | SlicePanic(start: nat)      // the slice itself panics

  /** One record of colors.csv (the columns the program reads). */
  datatype ColorItem = ColorItem(id: int, rgb: Rgb)

  /** `b` is a base-16 digit as `char::to_digit(16)` accepts it. */
  predicate IsHexDigit(b: byte) {
    (0x30 <= b <= 0x39) || (0x41 <= b <= 0x46) || (0x61 <= b <= 0x66)
  }

  function HexDigitValue(b: byte): (d: nat)
    requires IsHexDigit(b)
    ensures d < 16
  {
    if b <= 0x39 then (b - 0x30) as nat
    else if b <= 0x46 then (b - 0x41 + 10) as nat
    else (b - 0x61 + 10) as nat
  }

  /** Base-16 value of a sequence of hex digits, most significant first. */
  function HexValue(ds: seq<byte>): nat
    requires forall i | 0 <= i < |ds| :: IsHexDigit(ds[i])
    decreases |ds|
  {
    if ds == [] then 0 else HexValue(ds[..|ds| - 1]) * 16 + HexDigitValue(ds[|ds| - 1])
  }

  /**
   * `u8::from_str_radix(src, 16)`: an optional leading '+' (a lone sign is
   * rejected), then one or more hex digits whose value fits in a byte.
   */
  function ParseU8Hex(src: seq<byte>): (r: Option<byte>)
    ensures |src| == 2 ==> forall v: byte :: r == Some(v) <==> SpellsByte(src, v)
  {
    TwoByteValue(src);
    if src == [] || src == [PLUS] then None
    else
      var digits := if src[0] == PLUS then src[1..] else src;
      if forall i | 0 <= i < |digits| :: IsHexDigit(digits[i]) then
        var v := HexValue(digits);
        if v < 256 then Some(v as byte) else None
      else None
  }

  /** The digit values of a one- or two-digit channel. */
  lemma TwoByteValue(src: seq<byte>)
    ensures |src| == 2 && src[0] == PLUS && IsHexDigit(src[1]) ==> HexValue(src[1..]) == HexDigitValue(src[1])
    ensures |src| == 2 && IsHexDigit(src[0]) && IsHexDigit(src[1]) ==>
              HexValue(src) == 16 * HexDigitValue(src[0]) + HexDigitValue(src[1])
  {
    if |src| == 2 && src[0] == PLUS && IsHexDigit(src[1]) {
      assert src[1..][..0] == [];
    }
    if |src| == 2 && IsHexDigit(src[0]) && IsHexDigit(src[1]) {
      var first := src[..1];
      assert first[..0] == [];
      assert HexValue(first) == HexDigitValue(src[0]);
      assert src[..|src| - 1] == first;
    }
  }

  /**
   * Reference reading of a two-byte channel: two hex digits `hl` meaning
   * `16*h + l`, or '+' and one hex digit meaning that digit.
   */
  predicate SpellsByte(p: seq<byte>, v: byte) {
    |p| == 2 &&
    ((IsHexDigit(p[0]) && IsHexDigit(p[1]) && v as nat == 16 * HexDigitValue(p[0]) + HexDigitValue(p[1]))
     || (p[0] == PLUS && IsHexDigit(p[1]) && v as nat == HexDigitValue(p[1])))
  }

  /** `str::is_char_boundary` on the UTF-8 bytes: not inside a multi-byte character, not past the end. */
  predicate IsCharBoundary(s: seq<byte>, i: nat) {
    i == 0 || i == |s| || (i < |s| && (s[i] < 0x80 || s[i] >= 0xC0))
  }

  /** `&s[i..j]` on a `str`: the bytes, or `None` where Rust panics. */
  function StrSlice(s: seq<byte>, i: nat, j: nat): (r: Option<seq<byte>>)
    ensures r.Some? <==> i <= j <= |s| && IsCharBoundary(s, i) && IsCharBoundary(s, j)
    ensures r.Some? ==> r.value == s[i..j]
  {
    if i <= j <= |s| && IsCharBoundary(s, i) && IsCharBoundary(s, j) then Some(s[i..j]) else None
  }

  /** One channel: slice two bytes at `start`, then parse them. */
  function Channel(hex: seq<byte>, start: nat): Result<byte, HexError> {
    match StrSlice(hex, start, start + 2)
    case None => Err(SlicePanic(start))
    case Some(p) =>
      match ParseU8Hex(p)
      case None => Err(InvalidChannel(start))
      case Some(v) => Ok(v)
  }

  /** `&hex[start..start + 2]` does not panic: both ends are in range and on character boundaries. */
  predicate Sliceable(hex: seq<byte>, start: nat) {
    start + 2 <= |hex| && IsCharBoundary(hex, start) && IsCharBoundary(hex, start + 2)
  }

  /** The bytes at `start..start+2` exist, can be sliced, and spell `v`. */
  predicate ChannelSpells(hex: seq<byte>, start: nat, v: byte) {
    Sliceable(hex, start) && SpellsByte(hex[start..start + 2], v)
  }

  /** The channel at `start` can be sliced and spells some byte. */
  predicate Readable(hex: seq<byte>, start: nat) {
    exists v: byte :: ChannelSpells(hex, start, v)
  }

  /**
   * One channel panics exactly when it cannot be sliced, is rejected
   * exactly when it can be sliced but spells no byte, and otherwise yields
   * the byte it spells.
   */
  lemma ChannelOutcome(hex: seq<byte>, start: nat)
    ensures Channel(hex, start) == Err(SlicePanic(start)) <==> !Sliceable(hex, start)
    ensures Channel(hex, start) == Err(InvalidChannel(start)) <==> Sliceable(hex, start) && !Readable(hex, start)
    ensures Channel(hex, start).Ok? <==> Readable(hex, start)
    ensures Channel(hex, start).Ok? ==> ChannelSpells(hex, start, Channel(hex, start).value)
  {
    if Sliceable(hex, start) {
      var p := hex[start..start + 2];
      assert StrSlice(hex, start, start + 2) == Some(p);
      if Readable(hex, start) {
        var v: byte :| ChannelSpells(hex, start, v);
        assert ParseU8Hex(p) == Some(v);
      } else if ParseU8Hex(p).Some? {
        assert ChannelSpells(hex, start, ParseU8Hex(p).value);
      }
    }
  }

  /**
   * `deserialize_hex_color`: red, green and blue are read from bytes 0..2,
   * 2..4 and 4..6, in that order.  The first channel that fails decides the
   * outcome: a slice that cannot be taken is a panic of the source, a slice
   * that spells no byte is the error `from_str_radix` returns through `?`.
   */
  function DecodeHexColor(hex: seq<byte>): (r: Result<Rgb, HexError>)
    ensures r.Ok? <==>
              exists c: Rgb :: ChannelSpells(hex, 0, c.red) && ChannelSpells(hex, 2, c.green)
                               && ChannelSpells(hex, 4, c.blue)
    ensures r.Ok? ==> ChannelSpells(hex, 0, r.value.red) && ChannelSpells(hex, 2, r.value.green)
                      && ChannelSpells(hex, 4, r.value.blue)
    ensures r == Err(SlicePanic(0)) <==> !Sliceable(hex, 0)
    ensures r == Err(InvalidChannel(0)) <==> Sliceable(hex, 0) && !Readable(hex, 0)
    ensures r == Err(SlicePanic(2)) <==> Readable(hex, 0) && !Sliceable(hex, 2)
    ensures r == Err(InvalidChannel(2)) <==> Readable(hex, 0) && Sliceable(hex, 2) && !Readable(hex, 2)
    ensures r == Err(SlicePanic(4)) <==> Readable(hex, 0) && Readable(hex, 2) && !Sliceable(hex, 4)
    ensures r == Err(InvalidChannel(4)) <==>
              Readable(hex, 0) && Readable(hex, 2) && Sliceable(hex, 4) && !Readable(hex, 4)
  {
    ChannelOutcome(hex, 0);
    ChannelOutcome(hex, 2);
    ChannelOutcome(hex, 4);
    match Channel(hex, 0)
    case Err(e) => Err(e)
    case Ok(red) =>
      match Channel(hex, 2)
      case Err(e) => Err(e)
      case Ok(green) =>
        match Channel(hex, 4)
        case Err(e) => Err(e)
        case Ok(blue) => Ok(Rgb(red, green, blue))
  }

  /**
   * Fewer than six bytes never decode: some slice runs past the end or a
   * channel is rejected.  Fewer than two bytes panic at the first slice.
   */
  lemma ShortInputRejected(hex: seq<byte>)
    requires |hex| < 6
    ensures DecodeHexColor(hex).Err?
    ensures |hex| < 2 ==> DecodeHexColor(hex) == Err(SlicePanic(0))
  {
  }

  /**
   * Six ASCII bytes, followed by anything that starts a new character, can
   * always be sliced into the three channels: whether decoding succeeds
   * then depends only on the digits.
   */
  lemma AsciiChannelsSliceable(hex: seq<byte>)
    requires |hex| >= 6 && IsCharBoundary(hex, 6)
    requires forall i | 0 <= i < 6 :: hex[i] < 0x80
    ensures Sliceable(hex, 0) && Sliceable(hex, 2) && Sliceable(hex, 4)
    ensures DecodeHexColor(hex).Ok? || DecodeHexColor(hex).error.InvalidChannel?
  {
  }

  /**
   * Bytes after the sixth are never read: only whether byte 6 starts a
   * character matters, through the boundary check of the last slice.
   */
  lemma OnlySixBytesRead(hex: seq<byte>)
    requires |hex| >= 6 && IsCharBoundary(hex, 6)
    ensures DecodeHexColor(hex) == DecodeHexColor(hex[..6])
  {
    var h6 := hex[..6];
    assert hex[0..2] == h6[0..2] && hex[2..4] == h6[2..4] && hex[4..6] == h6[4..6];
    assert forall i | i in {0, 2, 4} :: IsCharBoundary(hex, i) == IsCharBoundary(h6, i);
  }

  /** A lower-case or upper-case hex digit for `d`. */
  function HexDigitByte(d: nat, upper: bool): (b: byte)
    requires d < 16
    ensures IsHexDigit(b) && HexDigitValue(b) == d
  {
    if d < 10 then (0x30 + d) as byte
    else if upper then (0x41 + d - 10) as byte
    else (0x61 + d - 10) as byte
  }

  /** The six-digit hex spelling of a colour, as the `rgb` column stores it. */
  function EncodeHexColor(c: Rgb, upper: bool): (hex: seq<byte>)
    ensures |hex| == 6
  {
    [HexDigitByte(c.red as nat / 16, upper), HexDigitByte(c.red as nat % 16, upper),
     HexDigitByte(c.green as nat / 16, upper), HexDigitByte(c.green as nat % 16, upper),
     HexDigitByte(c.blue as nat / 16, upper), HexDigitByte(c.blue as nat % 16, upper)]
  }

  /**
   * Round trip: the six-digit spelling of any colour, in either case,
   * followed by anything that starts a new character, decodes to that colour.
   */
  lemma HexRoundTrip(c: Rgb, upper: bool, rest: seq<byte>)
    requires rest == [] || rest[0] < 0x80 || rest[0] >= 0xC0
    ensures DecodeHexColor(EncodeHexColor(c, upper) + rest) == Ok(c)
  {
    var hex := EncodeHexColor(c, upper) + rest;
    assert IsCharBoundary(hex, 6) by {
      if rest != [] {
        assert hex[6] == rest[0];
      }
    }
    assert ChannelSpells(hex, 0, c.red) && ChannelSpells(hex, 2, c.green) && ChannelSpells(hex, 4, c.blue);
    ChannelsDetermineColor(hex, c, DecodeHexColor(hex).value);
  }

  /** A channel spelling has one meaning. */
  lemma SpellingUnique(p: seq<byte>, v: byte, w: byte)
    requires SpellsByte(p, v) && SpellsByte(p, w)
    ensures v == w
  {
  }

  lemma ChannelsDetermineColor(hex: seq<byte>, c: Rgb, d: Rgb)
    requires ChannelSpells(hex, 0, c.red) && ChannelSpells(hex, 2, c.green) && ChannelSpells(hex, 4, c.blue)
    requires ChannelSpells(hex, 0, d.red) && ChannelSpells(hex, 2, d.green) && ChannelSpells(hex, 4, d.blue)
    ensures c == d
  {
    SpellingUnique(hex[0..2], c.red, d.red);
    SpellingUnique(hex[2..4], c.green, d.green);
    SpellingUnique(hex[4..6], c.blue, d.blue);
  }

  /** `from_str_radix` also takes a sign: "+A+B+C" decodes to (10, 11, 12). */
  lemma SignedChannelsAccepted()
    ensures DecodeHexColor([PLUS, 0x41, PLUS, 0x42, PLUS, 0x43]) == Ok(Rgb(10, 11, 12))
  {
    var hex: seq<byte> := [PLUS, 0x41, PLUS, 0x42, PLUS, 0x43];
    assert ChannelSpells(hex, 0, 10) && ChannelSpells(hex, 2, 11) && ChannelSpells(hex, 4, 12);
    ChannelsDetermineColor(hex, Rgb(10, 11, 12), DecodeHexColor(hex).value);
  }

  /** The header of color_id_mapping.csv. */
  const MappingHeader: string := "matrix_index,color_id"

  /** One data line: the matrix index, a comma, the colour id. */
  function MappingLine(index: nat, id: int): string {
    NatToString(index) + "," + IntToString(id)
  }

  /** The lines `write_color_id_mapping` writes, without their line terminators. */
  function MappingLines(colors: seq<ColorItem>): (lines: seq<string>)
    ensures |lines| == |colors| + 1
    ensures lines[0] == MappingHeader
    ensures forall i | 0 <= i < |colors| :: lines[i + 1] == MappingLine(i, colors[i].id)
  {
    [MappingHeader] + seq(|colors|, i requires 0 <= i < |colors| => MappingLine(i, colors[i].id))
  }

  /** Each line followed by '\n', as `writeln!` produces them. */
  function Unlines(lines: seq<string>): string
    decreases |lines|
  {
    if lines == [] then "" else lines[0] + "\n" + Unlines(lines[1..])
  }

  /** `write_color_id_mapping`: the whole file text. */
  function MappingText(colors: seq<ColorItem>): string {
    Unlines(MappingLines(colors))
  }

  /** Position of the first `c` in `s`, or `|s|` if there is none. */
  function IndexOf(s: string, c: char): (k: nat)
    ensures k <= |s|
    ensures forall i | 0 <= i < k :: s[i] != c
    ensures k < |s| ==> s[k] == c
    decreases |s|
  {
    if s == [] then 0 else if s[0] == c then 0 else 1 + IndexOf(s[1..], c)
  }

  /** Splits text into '\n'-terminated lines (a final unterminated piece is a line too). */
  function SplitLines(s: string): seq<string>
    decreases |s|
  {
    if s == [] then []
    else
      var k := IndexOf(s, '\n');
      if k == |s| then [s] else [s[..k]] + SplitLines(s[k + 1..])
  }

  /** Splitting joined lines gives them back, as long as no line contains '\n'. */
  lemma {:induction false} SplitUnlines(lines: seq<string>)
    requires forall i, k | 0 <= i < |lines| && 0 <= k < |lines[i]| :: lines[i][k] != '\n'
    ensures SplitLines(Unlines(lines)) == lines
    decreases |lines|
  {
    if lines != [] {
      var s := Unlines(lines);
      var l := lines[0];
      assert s == l + "\n" + Unlines(lines[1..]);
      assert forall k | 0 <= k < |l| :: s[k] == l[k];
      IndexOfFirst(s, l);
      assert s[..|l|] == l;
      assert s[|l| + 1..] == Unlines(lines[1..]);
      SplitUnlines(lines[1..]);
    }
  }

  /** In `l + "\n" + t`, with no '\n' in `l`, the first '\n' ends `l`. */
  lemma IndexOfFirst(s: string, l: string)
    requires |l| < |s| && s[|l|] == '\n'
    requires forall k | 0 <= k < |l| :: s[k] == l[k] && l[k] != '\n'
    ensures IndexOf(s, '\n') == |l|
  {
  }

  /** Reads a data line back: the text before the first comma and the text after it. */
  function ParseMappingLine(line: string): Option<(nat, int)> {
    var k := IndexOf(line, ',');
    if k == |line| then None
    else
      match (ParseNat(line[..k]), ParseInt(line[k + 1..]))
      case (Some(i), Some(id)) => Some((i, id))
      case _ => None
  }

  /**
   * What `write_color_id_mapping` writes: split into lines, the text is the
   * header followed by one line per colour, and line `i + 1` reads back as
   * `(i, colors[i].id)`.
   */
  lemma MappingTextReadsBack(colors: seq<ColorItem>)
    ensures var lines := SplitLines(MappingText(colors));
            && |lines| == |colors| + 1
            && lines[0] == MappingHeader
            && forall i | 0 <= i < |colors| :: ParseMappingLine(lines[i + 1]) == Some((i, colors[i].id))
  {
    var lines := MappingLines(colors);
    MappingLinesHaveNoNewline(colors);
    SplitUnlines(lines);
    assert SplitLines(MappingText(colors)) == lines;
    forall i | 0 <= i < |colors| ensures ParseMappingLine(lines[i + 1]) == Some((i, colors[i].id)) {
      LineReadsBack(i, colors[i].id);
    }
  }

  /** No line of the mapping file contains a line break. */
  lemma MappingLinesHaveNoNewline(colors: seq<ColorItem>)
    ensures var lines := MappingLines(colors);
            forall i, k | 0 <= i < |lines| && 0 <= k < |lines[i]| :: lines[i][k] != '\n'
  {
    var lines := MappingLines(colors);
    forall i, k | 0 <= i < |lines| && 0 <= k < |lines[i]| ensures lines[i][k] != '\n' {
      if i > 0 {
        LineHasNoNewline(i - 1, colors[i - 1].id, k);
      }
    }
  }

  /** A data line is made of digits, a comma and possibly a minus sign. */
  lemma LineHasNoNewline(index: nat, id: int, k: nat)
    requires k < |MappingLine(index, id)|
    ensures MappingLine(index, id)[k] != '\n'
  {
    var n := NatToString(index);
    var t := IntToString(id);
    assert MappingLine(index, id) == n + "," + t;
    if k < |n| {
      assert MappingLine(index, id)[k] == n[k];
    } else if k > |n| {
      assert MappingLine(index, id)[k] == t[k - |n| - 1];
    }
  }

  /** A data line reads back as its index and id. */
  lemma LineReadsBack(index: nat, id: int)
    ensures ParseMappingLine(MappingLine(index, id)) == Some((index, id))
  {
    var n := NatToString(index);
    var line := MappingLine(index, id);
    assert line == n + "," + IntToString(id);
    assert forall k | 0 <= k < |n| :: line[k] == n[k] && n[k] != ',';
    IndexOfComma(line, n);
    assert line[..|n|] == n;
    assert line[|n| + 1..] == IntToString(id);
    NatRoundTrip(index);
    IntRoundTrip(id);
  }

  /** In `n + "," + t`, with no ',' in `n`, the first ',' ends `n`. */
  lemma IndexOfComma(s: string, n: string)
    requires |n| < |s| && s[|n|] == ','
    requires forall k | 0 <= k < |n| :: s[k] == n[k] && n[k] != ','
    ensures IndexOf(s, ',') == |n|
  {
  }
}

=== FILE: decimal.dfy ===
/**
 * Decimal text of integers, as Rust's `Display` writes `usize` and `i32`
 * values: base-10 digits without leading zeros, a leading '-' for negative
 * numbers.  The parser is the inverse used to state what the written text
 * means.
 */
module Decimal {
  import opened Results

  predicate IsDigit(c: char) {
    '0' <= c <= '9'
  }

  function DigitChar(d: nat): (c: char)
    requires d < 10
    ensures IsDigit(c)
  {
    "0123456789"[d]
  }

  function DigitValue(c: char): (d: nat)
    requires IsDigit(c)
    ensures d < 10
  {
    (c as int - '0' as int) as nat
  }

  /** The decimal text of `n`. */
  function NatToString(n: nat): (s: string)
    ensures |s| > 0 && forall i | 0 <= i < |s| :: IsDigit(s[i])
    decreases n
  {
    if n < 10 then [DigitChar(n)] else NatToString(n / 10) + [DigitChar(n % 10)]
  }

  /** The decimal text of `i`, with a '-' in front when it is negative. */
  function IntToString(i: int): (s: string)
    ensures |s| > 0
    ensures forall k | 0 <= k < |s| :: IsDigit(s[k]) || (k == 0 && s[k] == '-')
  {
    if i < 0 then "-" + NatToString(-i) else NatToString(i)
  }

  /** The value of a string of digits, most significant first. */
  function DigitsValue(s: string): nat
    requires forall i | 0 <= i < |s| :: IsDigit(s[i])
    decreases |s|
  {
    if s == [] then 0 else DigitsValue(s[..|s| - 1]) * 10 + DigitValue(s[|s| - 1])
  }

  /** A non-empty string of digits, read as a natural number. */
  function ParseNat(s: string): Option<nat> {
    if s != [] && forall i | 0 <= i < |s| :: IsDigit(s[i]) then Some(DigitsValue(s)) else None
  }

  /** An optional '-' followed by a non-empty string of digits. */
  function ParseInt(s: string): Option<int> {
    if s != [] && s[0] == '-' then
      match ParseNat(s[1..])
      case Some(n) => Some(-(n as int))
      case None => None
    else
      match ParseNat(s)
      case Some(n) => Some(n as int)
      case None => None
  }

  /** Reading back the decimal text of a natural number gives the number. */
  lemma {:induction false} NatRoundTrip(n: nat)
    ensures ParseNat(NatToString(n)) == Some(n)
    decreases n
  {
    var s := NatToString(n);
    if n < 10 {
      assert DigitsValue(s) == DigitsValue(s[..0]) * 10 + DigitValue(s[0]);
      assert s[..0] == [];
      assert DigitValue(DigitChar(n)) == n by {
        assert "0123456789"[n] as int == '0' as int + n;
      }
    } else {
      NatRoundTrip(n / 10);
      assert s[..|s| - 1] == NatToString(n / 10);
      assert DigitValue(DigitChar(n % 10)) == n % 10 by {
        assert "0123456789"[n % 10] as int == '0' as int + n % 10;
      }
    }
  }

  /** Reading back the decimal text of an integer gives the integer. */
  lemma IntRoundTrip(i: int)
    ensures ParseInt(IntToString(i)) == Some(i)
  {
    if i < 0 {
      NatRoundTrip(-i);
      assert IntToString(i)[1..] == NatToString(-i);
    } else {
      NatRoundTrip(i);
    }
  }
}

=== FILE: greedy.dfy ===
/**
 * The greedy removal frontier (`greedy` in src/knapsack.rs).
 *
 * Parts are removed one at a time, least frequent first.  A set of
 * inventories that have lost a part grows with every removal, and after
 * each removal the program records how many parts remain and how many
 * inventories are still buildable.
 */
module Greedy {
  import opened Incidence
  import opened Ranking
  import opened Sets

  /** Inventories that have lost at least one required part once the parts in `removed` are gone. */
  function Lost(m: Matrix, removed: seq<nat>): set<nat>
    decreases |removed|
  {
    if removed == [] then {}
    else Lost(m, removed[..|removed| - 1]) + ColumnRows(m, removed[|removed| - 1])
  }

  /** An inventory is lost exactly when it stores an entry in some removed column. */
  lemma {:induction false} LostMembers(m: Matrix, removed: seq<nat>, r: nat)
    ensures r in Lost(m, removed) <==>
              r < m.rows && exists i :: 0 <= i < |removed| && (r, removed[i]) in m.entries
    decreases |removed|
  {
    if removed != [] {
      var n := |removed| - 1;
      LostMembers(m, removed[..n], r);
      if r in Lost(m, removed[..n]) {
        var i :| 0 <= i < n && (r, removed[..n][i]) in m.entries;
        assert removed[..n][i] == removed[i];
      }
      if r < m.rows && (exists i :: 0 <= i < |removed| && (r, removed[i]) in m.entries) {
        var i :| 0 <= i < |removed| && (r, removed[i]) in m.entries;
        if i < n {
          assert removed[..n][i] == removed[i];
        }
      }
    }
  }

  /** Only inventories that require some part can be lost. */
  lemma {:induction false} LostWithinValid(m: Matrix, removed: seq<nat>)
    requires Valid(m)
    ensures Lost(m, removed) <= ValidRows(m)
    ensures |Lost(m, removed)| <= |ValidRows(m)|
  {
    forall r | r in Lost(m, removed) ensures r in ValidRows(m) {
      LostMembers(m, removed, r);
      var i :| 0 <= i < |removed| && (r, removed[i]) in m.entries;
      assert removed[i] in RowParts(m, r);
    }
    SubsetCardinality(Lost(m, removed), ValidRows(m));
  }

  /** Removing more parts never restores an inventory. */
  lemma {:induction false} LostGrows(m: Matrix, order: seq<nat>, k1: nat, k2: nat)
    requires k1 <= k2 <= |order|
    ensures Lost(m, order[..k1]) <= Lost(m, order[..k2])
  {
    forall r | r in Lost(m, order[..k1]) ensures r in Lost(m, order[..k2]) {
      LostMembers(m, order[..k1], r);
      LostMembers(m, order[..k2], r);
      var i :| 0 <= i < k1 && (r, order[..k1][i]) in m.entries;
      assert order[..k2][i] == order[i] == order[..k1][i];
    }
  }

  /**
   * A sufficient condition for both `usize` subtractions of the source to
   * stay non-negative: the number of empty columns is subtracted from the
   * row count, and the number of lost inventories (at most the number of
   * valid ones) from that difference.  It is not necessary: on some
   * matrices outside it the early exit fires before any subtraction would
   * go below zero.  A matrix without empty columns always satisfies it.
   */
  predicate Defined(m: Matrix) {
    EmptyColumnCount(m, m.cols) + |ValidRows(m)| <= m.rows
  }

  /** Every matrix without empty columns, such as the one the inventory builder produces, satisfies `Defined`. */
  lemma NoEmptyColumnsDefined(m: Matrix)
    requires NoEmptyColumns(m)
    ensures Defined(m)
  {
    NoEmptyColumnsCount(m, m.cols);
    SubsetOfBelow(ValidRows(m), m.rows);
  }

  /**
   * The buildable count the source records after removing the first `k`
   * parts of `removalOrder`: the row count, minus the number of empty
   * columns, minus the number of lost inventories.
   */
  function Buildable(m: Matrix, removalOrder: seq<nat>, k: nat): nat
    requires Valid(m) && Defined(m) && k <= |removalOrder|
  {
    LostWithinValid(m, removalOrder[..k]);
    m.rows - EmptyColumnCount(m, m.cols) - |Lost(m, removalOrder[..k])|
  }

  /** Lost inventories after one more removal: the previous ones plus the stored rows of the removed column. */
  lemma LostStep(m: Matrix, order: seq<nat>, i: nat)
    requires i < |order|
    ensures Lost(m, order[..i + 1]) == Lost(m, order[..i]) + ColumnRows(m, order[i])
  {
    assert order[..i + 1][..i] == order[..i];
  }

  /** Buildable counts never increase as parts are removed. */
  lemma {:induction false} BuildableNonIncreasing(m: Matrix, order: seq<nat>, k1: nat, k2: nat)
    requires Valid(m) && Defined(m) && k1 <= k2 <= |order|
    ensures Buildable(m, order, k2) <= Buildable(m, order, k1)
  {
    LostGrows(m, order, k1, k2);
    SubsetCardinality(Lost(m, order[..k1]), Lost(m, order[..k2]));
  }

  /** Once nothing is buildable, nothing becomes buildable again. */
  lemma {:induction false} ZeroPersists(m: Matrix, order: seq<nat>, k1: nat, k2: nat)
    requires Valid(m) && Defined(m) && k1 <= k2 <= |order|
    requires Buildable(m, order, k1) == 0
    ensures Buildable(m, order, k2) == 0
  {
    BuildableNonIncreasing(m, order, k1, k2);
  }

  /** Before any removal every inventory is counted except one per empty column. */
  lemma BuildableAtStart(m: Matrix, order: seq<nat>)
    requires Valid(m) && Defined(m)
    ensures Buildable(m, order, 0) == m.rows - EmptyColumnCount(m, m.cols)
  {
    assert order[..0] == [];
  }

  /** The buildable count after `i` removals, from the set of inventories lost so far. */
  lemma BuildableFromLost(m: Matrix, order: seq<nat>, i: nat, lost: set<nat>)
    requires Valid(m) && Defined(m) && i <= |order|
    requires lost == Lost(m, order[..i])
    ensures |lost| <= m.rows - EmptyColumnCount(m, m.cols)
    ensures Buildable(m, order, i) == m.rows - EmptyColumnCount(m, m.cols) - |lost|
  {
    LostWithinValid(m, order[..i]);
  }

  /** Entry `k` of the greedy frontier: `k` parts removed, `|order| - k` remaining. */
  function Entry(m: Matrix, order: seq<nat>, k: nat): (nat, nat)
    requires Valid(m) && Defined(m) && k <= |order|
  {
    (|order| - k, Buildable(m, order, k))
  }

  /** `results` is a prefix of the greedy frontier for removal order `order`. */
  predicate IsFrontierPrefix(m: Matrix, order: seq<nat>, results: seq<(nat, nat)>)
    requires Valid(m) && Defined(m)
  {
    && |results| <= |order| + 1
    && forall k | 0 <= k < |results| :: results[k] == Entry(m, order, k)
  }

  /** Appending the next entry extends a frontier prefix. */
  lemma ExtendFrontierPrefix(m: Matrix, order: seq<nat>, results: seq<(nat, nat)>, x: (nat, nat))
    requires Valid(m) && Defined(m) && |results| <= |order|
    requires IsFrontierPrefix(m, order, results) && x == Entry(m, order, |results|)
    ensures IsFrontierPrefix(m, order, results + [x])
  {
    var r := results + [x];
    forall k | 0 <= k < |r| ensures r[k] == Entry(m, order, k) {
      if k < |results| {
        assert r[k] == results[k];
      }
    }
  }

  /**
   * The early exit of `greedy`: once `k` parts are removed and nothing is
   * buildable, the remaining entries `(cols - j, 0)` for `j` from `k + 1` to
   * `cols` are appended without looking at the matrix again.  They agree
   * with the full removal simulation.
   */
  method FillExhausted(m: Matrix, order: seq<nat>, results: seq<(nat, nat)>) returns (filled: seq<(nat, nat)>)
    requires Valid(m) && Defined(m)
    requires 0 < |results| && IsFrontierPrefix(m, order, results)
    requires results[|results| - 1].1 == 0
    ensures |filled| == |order| + 1 && IsFrontierPrefix(m, order, filled)
    ensures forall k | 0 <= k <= |order| :: filled[k] == (|order| - k, Buildable(m, order, k))
  {
    var totalParts := |order|;
    var i := |results| - 1;
    filled := results;
    var j := i;
    while j < totalParts
      invariant i <= j <= totalParts
      invariant |filled| == j + 1
      invariant IsFrontierPrefix(m, order, filled)
    {
      ZeroPersists(m, order, i, j + 1);
      ExtendFrontierPrefix(m, order, filled, (totalParts - (j + 1), 0));
      filled := filled + [(totalParts - (j + 1), 0)];
      j := j + 1;
    }
  }

  /**
   * The removal loop of `greedy` for a given removal order: entry `k` of the
   * result is `(cols - k, buildable after removing the first k parts of
   * `partIndices`)`, for every `k` from 0 to `cols`, whether or not the
   * early exit fires.
   */
  method RemovalFrontier(m: Matrix, partIndices: seq<nat>) returns (results: seq<(nat, nat)>)
    requires Valid(m) && Defined(m) && |partIndices| == m.cols
    ensures |results| == m.cols + 1
    ensures results[0] == (m.cols, m.rows - EmptyColumnCount(m, m.cols))
    ensures forall k | 0 <= k <= m.cols :: results[k] == (m.cols - k, Buildable(m, partIndices, k))
  {
    var totalParts := m.cols;
    var totalInventories := m.rows - EmptyColumnCount(m, m.cols);
    var visited: set<nat> := {};
    results := [(totalParts, totalInventories - |visited|)];
    var i := 0;
    while i < |partIndices|
      invariant i <= |partIndices| == totalParts
      invariant visited == Lost(m, partIndices[..i])
      invariant |results| == i + 1
      invariant IsFrontierPrefix(m, partIndices, results)
    {
      var partToRemove := partIndices[i];
      visited := visited + ColumnRows(m, partToRemove);
      LostStep(m, partIndices, i);
      BuildableFromLost(m, partIndices, i + 1, visited);
      var partsRemaining := totalParts - (i + 1);
      var currentBuildable := totalInventories - |visited|;
      ExtendFrontierPrefix(m, partIndices, results, (partsRemaining, currentBuildable));
      results := results + [(partsRemaining, currentBuildable)];
      if currentBuildable == 0 {
        results := FillExhausted(m, partIndices, results);
        break;
      }
      i := i + 1;
    }
    BuildableAtStart(m, partIndices);
    forall k | 0 <= k <= m.cols
      ensures results[k] == (m.cols - k, Buildable(m, partIndices, k))
    {
      assert results[k] == Entry(m, partIndices, k);
    }
  }

  /**
   * `greedy`: the removal frontier for the parts ordered least frequent
   * first, ties by ascending index.
   */
  method GreedyFrontier(m: Matrix) returns (results: seq<(nat, nat)>)
    requires Valid(m) && Defined(m)
    ensures |results| == m.cols + 1
    ensures results[0] == (m.cols, m.rows - EmptyColumnCount(m, m.cols))
    ensures forall k | 0 <= k <= m.cols ::
              results[k] == (m.cols - k, Buildable(m, PartOrder(m, Ascending), k))
  {
    var partIndices := PartOrder(m, Ascending);
    results := RemovalFrontier(m, partIndices);
  }

  /** For a removal order listing every part once, an inventory is lost exactly when not all its parts remain. */
  lemma {:induction false} LostIffNotIntact(m: Matrix, order: seq<nat>, k: nat, r: nat)
    requires Valid(m) && Distinct(order) && k <= |order|
    requires forall c: nat :: c in order <==> c < m.cols
    requires r < m.rows
    ensures r in Lost(m, order[..k]) <==> !(RowParts(m, r) <= set c | c in order[k..])
  {
    LostMembers(m, order[..k], r);
    var remaining := set c | c in order[k..];
    if r in Lost(m, order[..k]) {
      var i :| 0 <= i < k && (r, order[..k][i]) in m.entries;
      assert order[..k][i] == order[i];
      assert order[i] !in remaining by {
        forall j | 0 <= j < |order| - k ensures order[k..][j] != order[i] {
          assert order[k..][j] == order[k + j];
        }
      }
      assert order[i] in RowParts(m, r);
    } else {
      forall c | c in RowParts(m, r) ensures c in remaining {
        assert c < m.cols;
        assert c in order;
        var j :| 0 <= j < |order| && order[j] == c;
        if j >= k {
          assert order[k..][j - k] == c;
        }
      }
    }
  }

  /** The inventories still coverable after removing a prefix of a full removal order are the complement of the lost ones. */
  lemma {:induction false} IntactCount(m: Matrix, order: seq<nat>, k: nat)
    requires Valid(m) && Distinct(order) && k <= |order|
    requires forall c: nat :: c in order <==> c < m.cols
    ensures |Coverable(m, set c | c in order[k..])| == m.rows - |Lost(m, order[..k])|
  {
    var lost := Lost(m, order[..k]);
    var intact := Coverable(m, set c | c in order[k..]);
    forall r: nat ensures r in intact <==> r in Below(m.rows) - lost {
      if r < m.rows {
        LostIffNotIntact(m, order, k, r);
      }
    }
    assert intact == Below(m.rows) - lost;
    LostWithinValid(m, order[..k]);
    forall r | r in lost ensures r in Below(m.rows) {
      LostMembers(m, order[..k], r);
    }
    DifferenceCardinality(Below(m.rows), lost);
  }

  /**
   * What the greedy count means: after removing the first `k` parts of the
   * ranking, the recorded buildable count plus the number of empty columns
   * is the number of inventories whose required parts all remain, counting
   * the inventories that require no part.
   */
  lemma {:induction false} BuildableCountsIntactInventories(m: Matrix, k: nat)
    requires Valid(m) && Defined(m) && k <= m.cols
    ensures var order := PartOrder(m, Ascending);
            Buildable(m, order, k) + EmptyColumnCount(m, m.cols)
            == |Coverable(m, set c | c in order[k..])|
  {
    IntactCount(m, PartOrder(m, Ascending), k);
  }

  /**
   * On a matrix with no empty rows and no empty columns (the shape the
   * inventory builder produces) the frontier starts with every inventory
   * buildable and ends with none.
   */
  lemma {:induction false} FrontierEndpoints(m: Matrix)
    requires Valid(m) && NoEmptyRows(m) && NoEmptyColumns(m)
    ensures Defined(m)
    ensures Buildable(m, PartOrder(m, Ascending), 0) == m.rows == |ValidRows(m)|
    ensures Buildable(m, PartOrder(m, Ascending), m.cols) == 0
  {
    NoEmptyColumnsCount(m, m.cols);
    assert ValidRows(m) == Below(m.rows);
    BuildableCountsIntactInventories(m, m.cols);
    var order := PartOrder(m, Ascending);
    var none := set c | c in order[m.cols..];
    assert none == {};
    forall r: nat | r < m.rows ensures r !in Coverable(m, none) {
      assert RowParts(m, r) != {};
    }
    assert Coverable(m, none) == {};
  }

  /**
   * The zero-part entry is not always zero: the initial count subtracts the
   * empty columns from the row count, so an inventory that requires no part
   * stays counted.  Two inventories, one part required by the first only:
   * with no part left, one inventory is still reported buildable.
   */
  lemma EmptyRowStaysCounted()
    ensures var m := Matrix(2, 1, {(0, 0)});
            Valid(m) && Defined(m) && Buildable(m, PartOrder(m, Ascending), 1) == 1
  {
    var m := Matrix(2, 1, {(0, 0)});
    assert ColumnRows(m, 0) == {0};
    assert RowParts(m, 0) == {0};
    assert RowParts(m, 1) == {};
    assert ValidRows(m) == {0};
    assert EmptyColumnCount(m, 1) == 0;
    var order := PartOrder(m, Ascending);
    assert order == [0];
    assert order[..1] == [0];
    assert Lost(m, order[..1]) == {0} by {
      assert order[..1][..0] == [];
    }
  }

  /** Inventories that require no part. */
  function EmptyRows(m: Matrix): set<nat> {
    set r: nat | r < m.rows && RowParts(m, r) == {}
  }

  /**
   * The last greedy entry, with every part removed, is not always zero:
   * plus the number of empty columns it is the number of inventories that
   * require no part.
   */
  lemma {:induction false} LastEntryCountsEmptyRows(m: Matrix)
    requires Valid(m) && Defined(m)
    ensures Buildable(m, PartOrder(m, Ascending), m.cols) + EmptyColumnCount(m, m.cols) == |EmptyRows(m)|
  {
    BuildableCountsIntactInventories(m, m.cols);
    var order := PartOrder(m, Ascending);
    var none := set c | c in order[m.cols..];
    assert none == {};
    forall r: nat ensures r in Coverable(m, none) <==> r in EmptyRows(m) {
      assert RowParts(m, r) <= {} <==> RowParts(m, r) == {};
    }
    assert Coverable(m, none) == EmptyRows(m);
  }

  /** The table as written: `results` reversed, so budgets run from 0 parts upward. */
  function WrittenTable(results: seq<(nat, nat)>): (table: seq<(nat, nat)>)
    ensures |table| == |results|
    ensures forall i | 0 <= i < |results| :: table[i] == results[|results| - 1 - i]
  {
    seq(|results|, i requires 0 <= i < |results| => results[|results| - 1 - i])
  }

  /**
   * The written greedy table lists `(n, buildable with n parts left)` for
   * `n = 0, 1, ..., cols`, and the buildable column never decreases, for
   * any removal order (in particular the ascending-frequency one).
   */
  lemma {:induction false} WrittenTableAscends(m: Matrix, order: seq<nat>, results: seq<(nat, nat)>)
    requires Valid(m) && Defined(m) && |order| == m.cols
    requires |results| == m.cols + 1
    requires forall k | 0 <= k <= m.cols :: results[k] == (m.cols - k, Buildable(m, order, k))
    ensures forall n | 0 <= n <= m.cols :: WrittenTable(results)[n].0 == n
    ensures forall n1, n2 | 0 <= n1 <= n2 <= m.cols ::
              WrittenTable(results)[n1].1 <= WrittenTable(results)[n2].1
  {
    var table := WrittenTable(results);
    forall n1, n2 | 0 <= n1 <= n2 <= m.cols ensures table[n1].1 <= table[n2].1 {
      BuildableNonIncreasing(m, order, m.cols - n2, m.cols - n1);
    }
  }
}

=== FILE: incidence.dfy ===
/**
 * The inventory/part incidence matrix, seen through its sparsity structure.
 *
 * Rows are inventories, columns are parts.  The program loads a sparse
 * integer matrix and maps every stored value to 0 or 1 without changing
 * which positions are stored, so every count it takes (`nnz`, the column
 * iterators) is a count of stored positions.  The model therefore keeps
 * exactly the set of stored positions.
 */
module Incidence {

  datatype Matrix = Matrix(rows: nat, cols: nat, entries: set<(nat, nat)>)

  /** Every stored position lies inside the declared shape. */
  predicate Valid(m: Matrix) {
    forall e | e in m.entries :: e.0 < m.rows && e.1 < m.cols
  }

  /** The inventories that require part `c` (the stored rows of column `c`). */
  function ColumnRows(m: Matrix, c: nat): (rs: set<nat>)
    ensures forall r :: r in rs <==> r < m.rows && (r, c) in m.entries
  {
    set r: nat | r < m.rows && (r, c) in m.entries
  }

  /** The parts required by inventory `r` (the stored columns of row `r`). */
  function RowParts(m: Matrix, r: nat): (cs: set<nat>)
    ensures forall c :: c in cs <==> c < m.cols && (r, c) in m.entries
  {
    set c: nat | c < m.cols && (r, c) in m.entries
  }

  /** Occupancy of a part: how many inventories store an entry in its column. */
  function Frequency(m: Matrix, c: nat): nat {
    |ColumnRows(m, c)|
  }

  /** The occupancy of every part, indexed by column. */
  function Frequencies(m: Matrix): (freq: seq<nat>)
    ensures |freq| == m.cols
    ensures forall c | 0 <= c < m.cols :: freq[c] == |ColumnRows(m, c)|
  {
    seq(m.cols, c requires 0 <= c < m.cols => Frequency(m, c))
  }

  /** How many of the first `n` parts no inventory requires (columns with no stored entry). */
  function EmptyColumnCount(m: Matrix, n: nat): (k: nat)
    ensures k <= n
  {
    if n == 0 then 0
    else EmptyColumnCount(m, n - 1) + (if Frequency(m, n - 1) == 0 then 1 else 0)
  }

  /** Every part is required by some inventory. */
  predicate NoEmptyColumns(m: Matrix) {
    forall c: nat | c < m.cols :: ColumnRows(m, c) != {}
  }

  /** Every inventory requires some part. */
  predicate NoEmptyRows(m: Matrix) {
    forall r: nat | r < m.rows :: RowParts(m, r) != {}
  }

  /** Without empty columns nothing is counted as empty. */
  lemma {:induction false} NoEmptyColumnsCount(m: Matrix, n: nat)
    requires NoEmptyColumns(m) && n <= m.cols
    ensures EmptyColumnCount(m, n) == 0
  {
    if n > 0 {
      NoEmptyColumnsCount(m, n - 1);
      assert ColumnRows(m, n - 1) != {};
    }
  }

  /** Inventories that require at least one part ("valid" inventories). */
  function ValidRows(m: Matrix): (rs: set<nat>)
    ensures forall r: nat :: r in rs <==> r < m.rows && RowParts(m, r) != {}
  {
    set r: nat | r < m.rows && RowParts(m, r) != {}
  }

  /**
   * Inventories all of whose required parts are in `available`, counting
   * inventories that require no part at all.
   */
  function Coverable(m: Matrix, available: set<nat>): set<nat> {
    set r: nat | r < m.rows && RowParts(m, r) <= available
  }

  /** A row index belongs to the valid rows exactly when some stored column names it. */
  lemma {:induction false} ValidRowsAreColumnRows(m: Matrix, r: nat)
    requires Valid(m)
    ensures r in ValidRows(m) <==> exists c: nat :: c < m.cols && r in ColumnRows(m, c)
  {
    if r in ValidRows(m) {
      var c :| c in RowParts(m, r);
      assert r in ColumnRows(m, c);
    }
  }
}

=== FILE: inventory.dfy ===
/**
 * The record-to-matrix builder (`main_with_output_dir` in
 * src/inventory_parts.rs, without its file I/O).
 *
 * Inventory records are read with a "True"/"False" spare flag, spare
 * records are dropped, quantities are summed per (inventory id, part
 * number), both kinds of identifier get dense indices in order of first
 * appearance while the grouped map is enumerated, and one
 * (row, column, quantity) triplet is emitted per grouped key.  The
 * enumeration order of the Rust `HashMap` is arbitrary, so the model takes
 * it as a parameter and every property holds for every order.
 */
module InventoryParts {
  import opened Results
  import opened Incidence
  import opened Sets

  /** One record of inventory_parts.csv (the columns the program reads). */
  datatype InventoryItem = InventoryItem(inventoryId: int, partNum: string, quantity: int, isSpare: bool)

  /** The grouping key: (inventory id, part number). */
  type Key = (int, string)

  /** One stored entry of the sparse matrix. */
  datatype Triplet = Triplet(row: nat, col: nat, value: int)

  function KeyOf(item: InventoryItem): Key {
    (item.inventoryId, item.partNum)
  }

  /**
   * `deserialize_bool_from_string`: exactly "True" and "False" are accepted;
   * any other text is a deserialisation error.
   */
  function DeserializeBool(s: string): (r: Result<bool, string>)
    ensures r.Ok? <==> s == "True" || s == "False"
    ensures r.Ok? ==> (r.value <==> s == "True")
  {
    match s
    case "True" => Ok(true)
    case "False" => Ok(false)
    case _ => Err("Expected 'True' or 'False'")
  }

  /** The spelling of a flag in the input file. */
  function FlagText(b: bool): string {
    if b then "True" else "False"
  }

  /** Every flag spelled as in the input file reads back as itself. */
  lemma FlagRoundTrip(b: bool)
    ensures DeserializeBool(FlagText(b)) == Ok(b)
  {
  }

  /** The non-spare records, in input order (`filter(|x| !x.is_spare)`). */
  function NonSpare(items: seq<InventoryItem>): (r: seq<InventoryItem>)
    ensures forall x :: x in r <==> x in items && !x.isSpare
    decreases |items|
  {
    if items == [] then []
    else if items[0].isSpare then NonSpare(items[1..])
    else [items[0]] + NonSpare(items[1..])
  }

  /** Each non-spare record is kept exactly as often as it occurs in the input; spare records never are. */
  lemma {:induction false} NonSpareMultiplicity(items: seq<InventoryItem>)
    ensures forall x :: multiset(NonSpare(items))[x] == if x.isSpare then 0 else multiset(items)[x]
    decreases |items|
  {
    if items != [] {
      NonSpareMultiplicity(items[1..]);
      assert items == [items[0]] + items[1..];
    }
  }

  /** Filtering distributes over concatenation. */
  lemma {:induction false} NonSpareAppend(a: seq<InventoryItem>, b: seq<InventoryItem>)
    ensures NonSpare(a + b) == NonSpare(a) + NonSpare(b)
    decreases |a|
  {
    if a == [] {
      assert a + b == b;
    } else {
      assert (a + b)[0] == a[0];
      assert (a + b)[1..] == a[1..] + b;
      NonSpareAppend(a[1..], b);
    }
  }

  /** Filtering a record added at the back keeps it there exactly when it is not a spare. */
  lemma NonSpareSnoc(items: seq<InventoryItem>)
    requires items != []
    ensures var n := |items| - 1;
      NonSpare(items) == NonSpare(items[..n]) + (if items[n].isSpare then [] else [items[n]])
  {
    var n := |items| - 1;
    var last := [items[n]];
    assert last[1..] == [];
    assert NonSpare(last) == if items[n].isSpare then [] else last;
    assert items[..n] + last == items;
    NonSpareAppend(items[..n], last);
  }

  /** Adds one record's quantity to the running total of its key (`entry(key).or_insert(0) += quantity`). */
  function AddItem(q: map<Key, int>, item: InventoryItem): map<Key, int> {
    var key := KeyOf(item);
    q[key := (if key in q then q[key] else 0) + item.quantity]
  }

  /** The grouped quantities of `items`, accumulated front to back. */
  function GroupSum(items: seq<InventoryItem>): map<Key, int>
    decreases |items|
  {
    if items == [] then map[]
    else AddItem(GroupSum(items[..|items| - 1]), items[|items| - 1])
  }

  /** `quantity_map`: the spare records dropped, then quantities grouped by key. */
  function QuantityMap(items: seq<InventoryItem>): map<Key, int> {
    GroupSum(NonSpare(items))
  }

  /** Reference sum: the total quantity of the non-spare records with key `key`. */
  function KeyTotal(items: seq<InventoryItem>, key: Key): int
    decreases |items|
  {
    if items == [] then 0
    else KeyTotal(items[..|items| - 1], key)
         + (var last := items[|items| - 1];
            if !last.isSpare && KeyOf(last) == key then last.quantity else 0)
  }

  /** The keys of the non-spare records. */
  function NonSpareKeys(items: seq<InventoryItem>): set<Key> {
    set item | item in items && !item.isSpare :: KeyOf(item)
  }

  /**
   * Grouping a spare-free sequence: its keys are exactly the records' keys
   * and each value is that key's total quantity.
   */
  lemma {:induction false} GroupSumIsKeyTotal(items: seq<InventoryItem>)
    requires forall x | x in items :: !x.isSpare
    ensures GroupSum(items).Keys == NonSpareKeys(items)
    ensures forall k | k in GroupSum(items) :: GroupSum(items)[k] == KeyTotal(items, k)
    decreases |items|
  {
    if items != [] {
      var n := |items| - 1;
      var prefix := items[..n];
      GroupSumIsKeyTotal(prefix);
      assert items == prefix + [items[n]];
      assert NonSpareKeys(items) == NonSpareKeys(prefix) + {KeyOf(items[n])};
      forall k | k in GroupSum(items) ensures GroupSum(items)[k] == KeyTotal(items, k) {
        if k == KeyOf(items[n]) && k !in GroupSum(prefix) {
          KeyTotalAbsent(prefix, k);
        }
      }
    }
  }

  /** A key that no non-spare record carries totals zero. */
  lemma {:induction false} KeyTotalAbsent(items: seq<InventoryItem>, key: Key)
    requires key !in NonSpareKeys(items)
    ensures KeyTotal(items, key) == 0
    decreases |items|
  {
    if items != [] {
      var n := |items| - 1;
      assert NonSpareKeys(items[..n]) <= NonSpareKeys(items) by {
        forall k | k in NonSpareKeys(items[..n]) ensures k in NonSpareKeys(items) {
          var x :| x in items[..n] && !x.isSpare && KeyOf(x) == k;
        }
      }
      KeyTotalAbsent(items[..n], key);
    }
  }

  /** Spare records never count: the reference total is the same before and after filtering them out. */
  lemma {:induction false} KeyTotalIgnoresSpares(items: seq<InventoryItem>, key: Key)
    ensures KeyTotal(NonSpare(items), key) == KeyTotal(items, key)
    decreases |items|
  {
    if items != [] {
      var n := |items| - 1;
      NonSpareSnoc(items);
      KeyTotalIgnoresSpares(items[..n], key);
      var prefix := NonSpare(items[..n]);
      if !items[n].isSpare {
        var f := prefix + [items[n]];
        assert NonSpare(items) == f;
        assert f[..|f| - 1] == prefix;
      } else {
        assert NonSpare(items) == prefix;
      }
    }
  }

  /**
   * `quantity_map`: its keys are exactly the distinct keys of the
   * non-spare records and each value is the sum of their quantities.
   */
  lemma QuantityMapContents(items: seq<InventoryItem>)
    ensures QuantityMap(items).Keys == NonSpareKeys(items)
    ensures forall k | k in QuantityMap(items) :: QuantityMap(items)[k] == KeyTotal(items, k)
  {
    GroupSumIsKeyTotal(NonSpare(items));
    assert NonSpareKeys(NonSpare(items)) == NonSpareKeys(items) by {
      forall k ensures k in NonSpareKeys(NonSpare(items)) <==> k in NonSpareKeys(items) {
        if k in NonSpareKeys(items) {
          var x :| x in items && !x.isSpare && KeyOf(x) == k;
          assert x in NonSpare(items);
        }
      }
    }
    forall k | k in QuantityMap(items) ensures QuantityMap(items)[k] == KeyTotal(items, k) {
      KeyTotalIgnoresSpares(items, k);
    }
  }

  /** A spare record anywhere in the input leaves `quantity_map` unchanged. */
  lemma {:induction false} SpareRecordIgnored(a: seq<InventoryItem>, spare: InventoryItem, b: seq<InventoryItem>)
    requires spare.isSpare
    ensures QuantityMap(a + [spare] + b) == QuantityMap(a + b)
  {
    NonSpareAppend(a + [spare], b);
    NonSpareAppend(a, [spare]);
    NonSpareAppend(a, b);
    assert NonSpare([spare]) == [];
    assert NonSpare(a) + [] == NonSpare(a);
  }

  /**
   * `elems` and `index` form a bijection between `s` and `0..|elems|`:
   * `index` is defined exactly on `s`, and `elems[index[x]] == x`,
   * `index[elems[i]] == i`.
   */
  predicate Enumerates<T>(elems: seq<T>, index: map<T, nat>, s: set<T>) {
    && index.Keys == s
    && (forall x | x in index :: index[x] < |elems| && elems[index[x]] == x)
    && (forall i | 0 <= i < |elems| :: elems[i] in index && index[elems[i]] == i)
  }

  /** An enumeration lists every element of `s` exactly once. */
  lemma EnumerationIsBijection<T>(elems: seq<T>, index: map<T, nat>, s: set<T>)
    requires Enumerates(elems, index, s)
    ensures Distinct(elems)
    ensures forall x :: x in elems <==> x in s
    ensures |elems| == |s|
  {
    var indices := set x | x in s :: index[x];
    assert indices == Below(|elems|) by {
      forall i: nat | i < |elems| ensures i in indices {
        assert elems[i] in s;
      }
    }
    InjectiveImage(s, index);
  }

  /** An injective map sends a set to an image of the same size. */
  lemma {:induction false} InjectiveImage<T>(s: set<T>, index: map<T, nat>)
    requires s <= index.Keys
    requires forall x, y | x in s && y in s && x != y :: index[x] != index[y]
    ensures |set x | x in s :: index[x]| == |s|
    decreases |s|
  {
    if s != {} {
      var x :| x in s;
      InjectiveImage(s - {x}, index);
      assert (set y | y in s :: index[y]) == (set y | y in s - {x} :: index[y]) + {index[x]};
    }
  }

  /**
   * One step of the index loop: a value not yet indexed gets the next free
   * index and is appended; a known value changes nothing.
   */
  method Intern<T>(elems: seq<T>, index: map<T, nat>, ghost s: set<T>, x: T)
    returns (elems': seq<T>, index': map<T, nat>)
    requires Enumerates(elems, index, s)
    ensures Enumerates(elems', index', s + {x})
    ensures x in s ==> elems' == elems && index' == index
    ensures x !in s ==> elems' == elems + [x] && index'[x] == |elems|
  {
    if x !in index {
      index' := index[x := |elems|];
      elems' := elems + [x];
      assert s + {x} == index'.Keys;
    } else {
      assert s + {x} == s;
      elems', index' := elems, index;
    }
  }

  /** The inventory ids among `keys`. */
  function InventoryIdsOf(keys: seq<Key>): set<int> {
    set k | k in keys :: k.0
  }

  /** The part numbers among `keys`. */
  function PartNumsOf(keys: seq<Key>): set<string> {
    set k | k in keys :: k.1
  }

  /**
   * The index loop (`inventory_id_to_index`, `part_num_to_index`): for the
   * given enumeration of the keys, `inventoryIds`/`idIndex` enumerate the
   * distinct inventory ids and `partNums`/`partIndex` the distinct part
   * numbers.
   */
  method BuildIndexMaps(keys: seq<Key>)
    returns (inventoryIds: seq<int>, idIndex: map<int, nat>, partNums: seq<string>, partIndex: map<string, nat>)
    ensures Enumerates(inventoryIds, idIndex, InventoryIdsOf(keys))
    ensures Enumerates(partNums, partIndex, PartNumsOf(keys))
  {
    inventoryIds, idIndex := [], map[];
    partNums, partIndex := [], map[];
    var i := 0;
    while i < |keys|
      invariant i <= |keys|
      invariant Enumerates(inventoryIds, idIndex, InventoryIdsOf(keys[..i]))
      invariant Enumerates(partNums, partIndex, PartNumsOf(keys[..i]))
    {
      var (inventoryId, partNum) := keys[i];
      assert keys[..i + 1] == keys[..i] + [keys[i]];
      assert InventoryIdsOf(keys[..i + 1]) == InventoryIdsOf(keys[..i]) + {inventoryId};
      assert PartNumsOf(keys[..i + 1]) == PartNumsOf(keys[..i]) + {partNum};
      inventoryIds, idIndex := Intern(inventoryIds, idIndex, InventoryIdsOf(keys[..i]), inventoryId);
      partNums, partIndex := Intern(partNums, partIndex, PartNumsOf(keys[..i]), partNum);
      i := i + 1;
    }
    assert keys[..i] == keys;
  }

  /** Triplet `t` sits at the row of `key.0` and the column of `key.1`. */
  predicate Encodes(t: Triplet, key: Key, inventoryIds: seq<int>, partNums: seq<string>) {
    t.row < |inventoryIds| && t.col < |partNums|
    && inventoryIds[t.row] == key.0 && partNums[t.col] == key.1
  }

  /**
   * The triplet loop (`add_triplet` per entry of `quantity_map`): triplet
   * `i` encodes key `i` of the enumeration and carries its quantity.
   */
  method EmitTriplets(q: map<Key, int>, keys: seq<Key>,
                      inventoryIds: seq<int>, idIndex: map<int, nat>,
                      partNums: seq<string>, partIndex: map<string, nat>)
    returns (triplets: seq<Triplet>)
    requires forall k | k in keys :: k in q
    requires Enumerates(inventoryIds, idIndex, InventoryIdsOf(keys))
    requires Enumerates(partNums, partIndex, PartNumsOf(keys))
    ensures |triplets| == |keys|
    ensures forall i | 0 <= i < |keys| ::
              Encodes(triplets[i], keys[i], inventoryIds, partNums) && triplets[i].value == q[keys[i]]
  {
    triplets := [];
    var i := 0;
    while i < |keys|
      invariant i <= |keys| && |triplets| == i
      invariant forall j | 0 <= j < i ::
                  Encodes(triplets[j], keys[j], inventoryIds, partNums) && triplets[j].value == q[keys[j]]
    {
      var (inventoryId, partNum) := keys[i];
      assert inventoryId in InventoryIdsOf(keys) && partNum in PartNumsOf(keys);
      var row := idIndex[inventoryId];
      var col := partIndex[partNum];
      triplets := triplets + [Triplet(row, col, q[keys[i]])];
      i := i + 1;
    }
  }

  /** The matrix the triplets describe, as stored positions. */
  function TripletMatrix(rows: nat, cols: nat, ts: seq<Triplet>): Matrix {
    Matrix(rows, cols, set t | t in ts :: (t.row, t.col))
  }

  /** Distinct keys are stored at distinct positions. */
  lemma PositionsDistinct(keys: seq<Key>, inventoryIds: seq<int>, partNums: seq<string>, ts: seq<Triplet>)
    requires |ts| == |keys|
    requires Distinct(keys)
    requires forall i | 0 <= i < |keys| :: Encodes(ts[i], keys[i], inventoryIds, partNums)
    ensures forall i, j | 0 <= i < j < |ts| :: (ts[i].row, ts[i].col) != (ts[j].row, ts[j].col)
  {
    forall i, j | 0 <= i < j < |ts| ensures (ts[i].row, ts[i].col) != (ts[j].row, ts[j].col) {
      assert Encodes(ts[i], keys[i], inventoryIds, partNums);
      assert Encodes(ts[j], keys[j], inventoryIds, partNums);
    }
  }

  /** Every row and every column of the triplet matrix holds a triplet. */
  lemma TripletMatrixShape(keys: seq<Key>, inventoryIds: seq<int>, partNums: seq<string>, ts: seq<Triplet>)
    requires |ts| == |keys|
    requires forall i | 0 <= i < |keys| :: Encodes(ts[i], keys[i], inventoryIds, partNums)
    requires forall x :: x in inventoryIds ==> x in InventoryIdsOf(keys)
    requires forall x :: x in partNums ==> x in PartNumsOf(keys)
    requires Distinct(inventoryIds)
    requires Distinct(partNums)
    ensures var m := TripletMatrix(|inventoryIds|, |partNums|, ts);
            Valid(m) && NoEmptyRows(m) && NoEmptyColumns(m)
  {
    var m := TripletMatrix(|inventoryIds|, |partNums|, ts);
    forall e | e in m.entries ensures e.0 < m.rows && e.1 < m.cols {
      var t :| t in ts && e == (t.row, t.col);
      var i :| 0 <= i < |ts| && ts[i] == t;
      assert Encodes(ts[i], keys[i], inventoryIds, partNums);
    }
    forall r: nat | r < m.rows ensures RowParts(m, r) != {} {
      var i := KeyOfId(keys, inventoryIds, r);
      assert Encodes(ts[i], keys[i], inventoryIds, partNums);
      assert ts[i].row == r;
      assert (ts[i].row, ts[i].col) in m.entries;
      assert ts[i].col in RowParts(m, r);
    }
    forall c: nat | c < m.cols ensures ColumnRows(m, c) != {} {
      var i := KeyOfPart(keys, partNums, c);
      assert Encodes(ts[i], keys[i], inventoryIds, partNums);
      assert ts[i].col == c;
      assert (ts[i].row, ts[i].col) in m.entries;
      assert ts[i].row in ColumnRows(m, c);
    }
  }

  /** Some key carries the inventory id of row `r`. */
  lemma KeyOfId(keys: seq<Key>, inventoryIds: seq<int>, r: nat) returns (i: nat)
    requires r < |inventoryIds|
    requires forall x :: x in inventoryIds ==> x in InventoryIdsOf(keys)
    ensures i < |keys| && keys[i].0 == inventoryIds[r]
  {
    var x := inventoryIds[r];
    assert x in inventoryIds;
    assert x in InventoryIdsOf(keys);
    var k :| k in keys && k.0 == x;
    i :| 0 <= i < |keys| && keys[i] == k;
  }

  /** Some key carries the part number of column `c`. */
  lemma KeyOfPart(keys: seq<Key>, partNums: seq<string>, c: nat) returns (i: nat)
    requires c < |partNums|
    requires forall x :: x in partNums ==> x in PartNumsOf(keys)
    ensures i < |keys| && keys[i].1 == partNums[c]
  {
    var x := partNums[c];
    assert x in partNums;
    assert x in PartNumsOf(keys);
    var k :| k in keys && k.1 == x;
    i :| 0 <= i < |keys| && keys[i] == k;
  }

  /**
   * The filter, group-by-sum, index-mapping and triplet section of
   * `main_with_output_dir`.  `quantity_map` is enumerated twice, and the
   * two enumerations need not agree: `keys` is the order the index loop
   * sees and `entries` the order the triplet loop sees, each any
   * duplicate-free listing of the map's keys.  The row mapping lists each
   * inventory id of the map once, the column mapping each part number once;
   * triplet `i` sits at the row and column of `entries[i]` and carries that
   * key's total quantity, no two triplets share a position, and no row or
   * column of the resulting matrix is empty.
   */
  method BuildInventoryMatrix(items: seq<InventoryItem>, keys: seq<Key>, entries: seq<Key>)
    returns (inventoryIds: seq<int>, partNums: seq<string>, triplets: seq<Triplet>)
    requires forall k :: k in keys <==> k in QuantityMap(items)
    requires forall k :: k in entries <==> k in QuantityMap(items)
    requires Distinct(keys) && Distinct(entries)
    ensures Distinct(inventoryIds)
    ensures forall x :: x in inventoryIds <==> x in InventoryIdsOf(keys)
    ensures Distinct(partNums)
    ensures forall x :: x in partNums <==> x in PartNumsOf(keys)
    ensures |triplets| == |entries| == |QuantityMap(items)|
    ensures forall i | 0 <= i < |entries| ::
              Encodes(triplets[i], entries[i], inventoryIds, partNums)
              && triplets[i].value == KeyTotal(items, entries[i])
    ensures forall i, j | 0 <= i < j < |triplets| ::
              (triplets[i].row, triplets[i].col) != (triplets[j].row, triplets[j].col)
    ensures var m := TripletMatrix(|inventoryIds|, |partNums|, triplets);
            Valid(m) && NoEmptyRows(m) && NoEmptyColumns(m)
  {
    var idIndex, partIndex;
    inventoryIds, idIndex, partNums, partIndex := BuildIndexMaps(keys);
    SameComponents(keys, entries);
    triplets := EmitTriplets(QuantityMap(items), entries, inventoryIds, idIndex, partNums, partIndex);
    IndexFacts(keys, inventoryIds, idIndex, partNums, partIndex);
    TripletFacts(items, entries, inventoryIds, partNums, triplets);
  }

  /** Two listings of the same keys carry the same inventory ids and the same part numbers. */
  lemma SameComponents(keys: seq<Key>, entries: seq<Key>)
    requires forall k :: k in keys <==> k in entries
    ensures InventoryIdsOf(keys) == InventoryIdsOf(entries)
    ensures PartNumsOf(keys) == PartNumsOf(entries)
  {
  }

  /** The index maps enumerate the distinct ids and part numbers without repeats. */
  lemma IndexFacts(keys: seq<Key>, inventoryIds: seq<int>, idIndex: map<int, nat>,
                   partNums: seq<string>, partIndex: map<string, nat>)
    requires Enumerates(inventoryIds, idIndex, InventoryIdsOf(keys))
    requires Enumerates(partNums, partIndex, PartNumsOf(keys))
    ensures Distinct(inventoryIds)
    ensures forall x :: x in inventoryIds <==> x in InventoryIdsOf(keys)
    ensures Distinct(partNums)
    ensures forall x :: x in partNums <==> x in PartNumsOf(keys)
  {
    EnumerationIsBijection(inventoryIds, idIndex, InventoryIdsOf(keys));
    EnumerationIsBijection(partNums, partIndex, PartNumsOf(keys));
  }

  /** What the emitted triplets describe, given duplicate-free index lists. */
  lemma TripletFacts(items: seq<InventoryItem>, keys: seq<Key>, inventoryIds: seq<int>,
                     partNums: seq<string>, triplets: seq<Triplet>)
    requires forall k :: k in keys <==> k in QuantityMap(items)
    requires Distinct(keys)
    requires Distinct(inventoryIds)
    requires forall x :: x in inventoryIds <==> x in InventoryIdsOf(keys)
    requires Distinct(partNums)
    requires forall x :: x in partNums <==> x in PartNumsOf(keys)
    requires |triplets| == |keys|
    requires forall i | 0 <= i < |keys| ::
               Encodes(triplets[i], keys[i], inventoryIds, partNums) && triplets[i].value == QuantityMap(items)[keys[i]]
    ensures |keys| == |QuantityMap(items)|
    ensures forall i | 0 <= i < |keys| :: triplets[i].value == KeyTotal(items, keys[i])
    ensures forall i, j | 0 <= i < j < |triplets| ::
              (triplets[i].row, triplets[i].col) != (triplets[j].row, triplets[j].col)
    ensures var m := TripletMatrix(|inventoryIds|, |partNums|, triplets);
            Valid(m) && NoEmptyRows(m) && NoEmptyColumns(m)
  {
    QuantityMapContents(items);
    KeysDistinct(keys, QuantityMap(items));
    PositionsDistinct(keys, inventoryIds, partNums, triplets);
    TripletMatrixShape(keys, inventoryIds, partNums, triplets);
  }

  /** A duplicate-free enumeration of a map's keys has one entry per key. */
  lemma KeysDistinct(keys: seq<Key>, q: map<Key, int>)
    requires forall k :: k in keys <==> k in q
    requires Distinct(keys)
    ensures |keys| == |q|
  {
    DistinctCardinality(keys);
    assert (set k | k in keys) == q.Keys;
  }
}

=== FILE: ranking.dfy ===
/**
 * Ranking of parts by occupancy.
 *
 * Both frontier algorithms order the column indices `0..cols` with Rust's
 * stable `sort_by`, keyed on the part frequency: the greedy removal
 * ascending, the ranked selection descending.  Because the input is the
 * ascending index sequence, a stable sort places equal-frequency parts in
 * ascending index order, so the result is the sort by (frequency, index)
 * with the frequency compared in the chosen direction.
 */
module Ranking {
  import opened Incidence
  import opened Sets

  datatype Direction = Ascending | Descending

  /** Every element of `s` indexes `freq`. */
  predicate InRange(freq: seq<nat>, s: seq<nat>) {
    forall i | 0 <= i < |s| :: s[i] < |freq|
  }

  /**
   * Part `a` comes before part `b`: its frequency is strictly smaller
   * (ascending) or larger (descending), or the frequencies tie and `a` has
   * the smaller index.
   */
  predicate Before(freq: seq<nat>, dir: Direction, a: nat, b: nat)
    requires a < |freq| && b < |freq|
  {
    if freq[a] == freq[b] then a < b
    else if dir == Ascending then freq[a] < freq[b]
    else freq[a] > freq[b]
  }

  /** `s` is ordered by `Before`: every earlier element comes before every later one. */
  predicate SortedBy(freq: seq<nat>, dir: Direction, s: seq<nat>)
    requires InRange(freq, s)
  {
    forall i, j | 0 <= i < j < |s| :: Before(freq, dir, s[i], s[j])
  }

  /** The ascending index sequence `[0, 1, ..., n-1]`. */
  function Indices(n: nat): (s: seq<nat>)
    ensures |s| == n
    ensures forall i | 0 <= i < n :: s[i] == i
  {
    seq(n, i requires 0 <= i < n => i)
  }

  /** Inserts `x` into the sorted sequence `s` in front of the first element it comes before. */
  function Insert(freq: seq<nat>, dir: Direction, x: nat, s: seq<nat>): (r: seq<nat>)
    requires x < |freq| && InRange(freq, s)
    requires SortedBy(freq, dir, s) && x !in s
    ensures multiset(r) == multiset(s) + multiset{x}
    ensures InRange(freq, r) && SortedBy(freq, dir, r)
    decreases |s|
  {
    if s == [] then [x]
    else if Before(freq, dir, x, s[0]) then
      forall y | y in s ensures Before(freq, dir, x, y) {
        var k :| 0 <= k < |s| && s[k] == y;
        if k > 0 {
          BeforeTransitive(freq, dir, x, s[0], y);
        }
      }
      SortedCons(freq, dir, x, s);
      [x] + s
    else
      BeforeTotal(freq, dir, x, s[0]);
      var rest := Insert(freq, dir, x, s[1..]);
      assert s == [s[0]] + s[1..];
      forall y | y in rest ensures Before(freq, dir, s[0], y) {
        assert y in multiset(rest);
      }
      SortedCons(freq, dir, s[0], rest);
      [s[0]] + rest
  }

  /** `Before` is total on distinct parts. */
  lemma BeforeTotal(freq: seq<nat>, dir: Direction, a: nat, b: nat)
    requires a < |freq| && b < |freq| && a != b
    ensures Before(freq, dir, a, b) || Before(freq, dir, b, a)
  {
  }

  /** `Before` is transitive. */
  lemma BeforeTransitive(freq: seq<nat>, dir: Direction, a: nat, b: nat, c: nat)
    requires a < |freq| && b < |freq| && c < |freq|
    requires Before(freq, dir, a, b) && Before(freq, dir, b, c)
    ensures Before(freq, dir, a, c)
  {
  }

  /** Prepending an element that comes before everything keeps a sequence sorted. */
  lemma SortedCons(freq: seq<nat>, dir: Direction, h: nat, t: seq<nat>)
    requires h < |freq| && InRange(freq, t) && SortedBy(freq, dir, t)
    requires forall y | y in t :: Before(freq, dir, h, y)
    ensures InRange(freq, [h] + t) && SortedBy(freq, dir, [h] + t)
  {
    var s := [h] + t;
    forall i, j | 0 <= i < j < |s| ensures Before(freq, dir, s[i], s[j]) {
      if i == 0 {
        assert s[j] == t[j - 1];
      } else {
        assert s[i] == t[i - 1] && s[j] == t[j - 1];
      }
    }
  }

  /** Stable insertion sort of distinct part indices. */
  function Sort(freq: seq<nat>, dir: Direction, xs: seq<nat>): (r: seq<nat>)
    requires InRange(freq, xs) && Distinct(xs)
    ensures multiset(r) == multiset(xs)
    ensures InRange(freq, r) && SortedBy(freq, dir, r)
    decreases |xs|
  {
    if xs == [] then []
    else
      assert xs == [xs[0]] + xs[1..];
      var tail := Sort(freq, dir, xs[1..]);
      assert xs[0] !in xs[1..];
      assert xs[0] !in tail by {
        assert xs[0] !in multiset(xs[1..]);
      }
      Insert(freq, dir, xs[0], tail)
  }

  /**
   * The order in which a frontier algorithm visits the parts: a permutation
   * of `0..cols`, sorted by frequency in direction `dir`, ties by index.
   */
  function PartOrder(m: Matrix, dir: Direction): (order: seq<nat>)
    ensures |order| == m.cols
    ensures forall c: nat :: c in order <==> c < m.cols
    ensures Distinct(order)
    ensures InRange(Frequencies(m), order) && SortedBy(Frequencies(m), dir, order)
    ensures forall i, j | 0 <= i < j < m.cols ::
              var fi, fj := Frequency(m, order[i]), Frequency(m, order[j]);
              if fi == fj then order[i] < order[j]
              else if dir == Ascending then fi < fj else fi > fj
  {
    var freq := Frequencies(m);
    var order := Sort(freq, dir, Indices(m.cols));
    PermutationFacts(Indices(m.cols), order);
    forall c: nat ensures c in order <==> c < m.cols {
      if c < m.cols {
        assert Indices(m.cols)[c] == c;
      }
    }
    order
  }

  /** A permutation of a sequence of distinct elements is distinct and has the same elements. */
  lemma PermutationFacts<T>(xs: seq<T>, ys: seq<T>)
    requires Distinct(xs) && multiset(xs) == multiset(ys)
    ensures |ys| == |xs|
    ensures forall y :: y in ys <==> y in xs
    ensures Distinct(ys)
  {
    assert |ys| == |multiset(ys)| == |multiset(xs)| == |xs|;
    forall y ensures y in ys <==> y in xs {
      assert y in ys <==> y in multiset(ys);
    }
    forall i, j | 0 <= i < j < |ys| ensures ys[i] != ys[j] {
      RepeatedMultiplicity(ys, i, j);
      DistinctMultiplicity(xs, ys[i]);
    }
  }

  /** An element found at two positions occurs at least twice. */
  lemma RepeatedMultiplicity<T>(ys: seq<T>, i: nat, j: nat)
    requires i < j < |ys|
    ensures ys[i] == ys[j] ==> multiset(ys)[ys[i]] >= 2
  {
    assert ys == ys[..j] + ys[j..];
    assert ys[i] in ys[..j];
    assert ys[j] == ys[j..][0];
  }

  /** In a distinct sequence every element occurs at most once. */
  lemma {:induction false} DistinctMultiplicity<T>(xs: seq<T>, y: T)
    requires Distinct(xs)
    ensures multiset(xs)[y] <= 1
  {
    if xs != [] {
      assert xs == [xs[0]] + xs[1..];
      DistinctMultiplicity(xs[1..], y);
      if y == xs[0] {
        assert y !in xs[1..];
      }
    }
  }

  /**
   * The ranking is determined by the frequencies: two distinct sequences
   * with the same elements, both sorted by `Before`, are equal.  This is why
   * the stable sort's output is reproducible whatever sorting algorithm
   * produced it.
   */
  lemma {:induction false} SortedPermutationUnique(freq: seq<nat>, dir: Direction, a: seq<nat>, b: seq<nat>)
    requires InRange(freq, a) && InRange(freq, b)
    requires Distinct(a) && Distinct(b)
    requires SortedBy(freq, dir, a) && SortedBy(freq, dir, b)
    requires forall x :: x in a <==> x in b
    ensures a == b
    decreases |a|
  {
    PermutationSize(a, b);
    if a != [] {
      assert a[0] == b[0] by {
        assert b[0] in a;
        var j :| 0 <= j < |a| && a[j] == b[0];
        assert a[0] in b;
        var k :| 0 <= k < |b| && b[k] == a[0];
        assert j == 0 || Before(freq, dir, a[0], b[0]);
        assert k == 0 || Before(freq, dir, b[0], a[0]);
      }
      forall x ensures x in a[1..] <==> x in b[1..] {
        if x in a[1..] {
          assert x in b && x != b[0];
        }
        if x in b[1..] {
          assert x in a && x != a[0];
        }
      }
      SortedPermutationUnique(freq, dir, a[1..], b[1..]);
      assert a == [a[0]] + a[1..];
      assert b == [b[0]] + b[1..];
    }
  }

  /** Distinct sequences with the same elements have the same length. */
  lemma PermutationSize<T>(a: seq<T>, b: seq<T>)
    requires Distinct(a) && Distinct(b)
    requires forall x :: x in a <==> x in b
    ensures |a| == |b|
  {
    DistinctCardinality(a);
    DistinctCardinality(b);
    assert (set x | x in a) == (set x | x in b);
  }
}

=== FILE: results.dfy ===
/** Success/failure values shared by the parsers of the model. */
module Results {

  /** An optional value, as Rust's `Option`. */
  datatype Option<+T> = None | Some(value: T)

  /** A value or an error, as Rust's `Result`. */
  datatype Result<+T, +E> = Ok(value: T) | Err(error: E)
}

=== FILE: selection.dfy ===
/**
 * The ranked selection frontier (`dynamic_programming` in src/knapsack.rs).
 *
 * Parts are ranked most frequent first.  For every budget `n` from 0 to
 * the number of parts, the first `n` ranked parts are selected, and the
 * frontier records how many inventories that require at least one part
 * have all their parts among the selected ones.  Despite the source's
 * name there is no recurrence: every budget is evaluated on its own (the
 * source spreads them over threads; the model evaluates them in order).
 */
module Selection {
  import opened Incidence
  import opened Ranking
  import opened Sets

  /** The parts available with budget `n`: the first `n` of `order`. */
  function Selected(order: seq<nat>, n: nat): set<nat>
    requires n <= |order|
  {
    set c | c in order[..n]
  }

  /** Inventories that require at least one part and whose parts are all in `selected`. */
  function BuildableWith(m: Matrix, selected: set<nat>): set<nat> {
    set r: nat | r < m.rows && RowParts(m, r) != {} && RowParts(m, r) <= selected
  }

  /** Larger budgets select more parts: `Selected(n1)` is contained in `Selected(n2)` for `n1 <= n2`. */
  lemma {:induction false} SelectedNested(order: seq<nat>, n1: nat, n2: nat)
    requires n1 <= n2 <= |order|
    ensures Selected(order, n1) <= Selected(order, n2)
    ensures n2 == n1 + 1 ==> Selected(order, n2) == Selected(order, n1) + {order[n1]}
  {
    forall c | c in Selected(order, n1) ensures c in Selected(order, n2) {
      var i :| 0 <= i < n1 && order[..n1][i] == c;
      assert order[..n2][i] == c;
    }
    if n2 == n1 + 1 {
      assert order[..n2] == order[..n1] + [order[n1]];
    }
  }

  /** The buildable count never decreases as the budget grows. */
  lemma {:induction false} BuildableMonotone(m: Matrix, order: seq<nat>, n1: nat, n2: nat)
    requires n1 <= n2 <= |order|
    ensures |BuildableWith(m, Selected(order, n1))| <= |BuildableWith(m, Selected(order, n2))|
  {
    SelectedNested(order, n1, n2);
    SubsetCardinality(BuildableWith(m, Selected(order, n1)), BuildableWith(m, Selected(order, n2)));
  }

  /** With no part selected no inventory is buildable. */
  lemma {:induction false} NothingBuildableWithoutParts(m: Matrix, order: seq<nat>)
    ensures |BuildableWith(m, Selected(order, 0))| == 0
  {
    assert Selected(order, 0) == {};
    forall r: nat ensures r !in BuildableWith(m, {}) {
      assert RowParts(m, r) <= {} ==> RowParts(m, r) == {};
    }
    assert BuildableWith(m, {}) == {};
  }

  /** With every part selected, every inventory that requires a part is buildable. */
  lemma {:induction false} EverythingBuildableWithAllParts(m: Matrix)
    requires Valid(m)
    ensures |BuildableWith(m, Selected(PartOrder(m, Descending), m.cols))| == |ValidRows(m)|
  {
    var order := PartOrder(m, Descending);
    assert order[..m.cols] == order;
    forall r: nat | r in ValidRows(m) ensures r in BuildableWith(m, Selected(order, m.cols)) {
      forall c | c in RowParts(m, r) ensures c in Selected(order, m.cols) {
        assert c in order;
      }
    }
    assert BuildableWith(m, Selected(order, m.cols)) == ValidRows(m);
  }

  /**
   * `valid_inventories`: the inventories that require at least one part,
   * in ascending order.
   */
  method ValidInventories(m: Matrix) returns (valid: seq<nat>)
    ensures forall i, j | 0 <= i < j < |valid| :: valid[i] < valid[j]
    ensures forall r: nat :: r in valid <==> r in ValidRows(m)
  {
    valid := [];
    var r := 0;
    while r < m.rows
      invariant r <= m.rows
      invariant forall i, j | 0 <= i < j < |valid| :: valid[i] < valid[j]
      invariant forall i | 0 <= i < |valid| :: valid[i] < r
      invariant forall x: nat :: x in valid <==> x < r && RowParts(m, x) != {}
    {
      if RowParts(m, r) != {} {
        valid := valid + [r];
      }
      r := r + 1;
    }
  }

  /** The valid inventories among `valid[..i]` whose parts are all selected. */
  function CountedAmong(m: Matrix, valid: seq<nat>, selected: set<nat>, i: nat): set<nat>
    requires i <= |valid|
  {
    set x | x in valid[..i] && RowParts(m, x) <= selected
  }

  /**
   * The count of one budget: how many of the valid inventories have all
   * their parts in `selected`.
   */
  method CountBuildable(m: Matrix, valid: seq<nat>, selected: set<nat>) returns (count: nat)
    requires forall i, j | 0 <= i < j < |valid| :: valid[i] < valid[j]
    requires forall r: nat :: r in valid <==> r in ValidRows(m)
    ensures count == |BuildableWith(m, selected)|
  {
    count := 0;
    var i := 0;
    while i < |valid|
      invariant i <= |valid|
      invariant count == |CountedAmong(m, valid, selected, i)|
    {
      CountedStep(m, valid, selected, i);
      if RowParts(m, valid[i]) <= selected {
        count := count + 1;
      }
      i := i + 1;
    }
    CountedAll(m, valid, selected);
  }

  /** Looking at one more valid inventory adds it to the count exactly when its parts are selected. */
  lemma CountedStep(m: Matrix, valid: seq<nat>, selected: set<nat>, i: nat)
    requires i < |valid|
    requires forall a, b | 0 <= a < b < |valid| :: valid[a] < valid[b]
    ensures |CountedAmong(m, valid, selected, i + 1)|
            == |CountedAmong(m, valid, selected, i)| + (if RowParts(m, valid[i]) <= selected then 1 else 0)
  {
    assert valid[..i + 1] == valid[..i] + [valid[i]];
    assert valid[i] !in CountedAmong(m, valid, selected, i);
    if RowParts(m, valid[i]) <= selected {
      assert CountedAmong(m, valid, selected, i + 1)
          == CountedAmong(m, valid, selected, i) + {valid[i]};
    } else {
      assert CountedAmong(m, valid, selected, i + 1) == CountedAmong(m, valid, selected, i);
    }
  }

  /** All of `valid` counted: the buildable inventories. */
  lemma CountedAll(m: Matrix, valid: seq<nat>, selected: set<nat>)
    requires forall r: nat :: r in valid <==> r in ValidRows(m)
    ensures CountedAmong(m, valid, selected, |valid|) == BuildableWith(m, selected)
  {
    assert valid[..|valid|] == valid;
  }

  /**
   * The per-budget evaluation for a given ranking: entry `n` is
   * `(n, number of valid inventories whose parts are all among the first n
   * ranked parts)`, for every `n` from 0 to `cols`, in ascending order.
   */
  method RankedFrontier(m: Matrix, sortedPartIndices: seq<nat>) returns (results: seq<(nat, nat)>)
    requires |sortedPartIndices| == m.cols
    ensures |results| == m.cols + 1
    ensures forall n | 0 <= n <= m.cols ::
              results[n] == (n, |BuildableWith(m, Selected(sortedPartIndices, n))|)
  {
    var validInventories := ValidInventories(m);
    results := [];
    var n := 0;
    while n <= m.cols
      invariant n <= m.cols + 1
      invariant |results| == n
      invariant forall k | 0 <= k < n ::
                  results[k] == (k, |BuildableWith(m, Selected(sortedPartIndices, k))|)
    {
      var selectedParts := set c | c in sortedPartIndices[..n];
      var buildableCount := CountBuildable(m, validInventories, selectedParts);
      results := results + [(n, buildableCount)];
      n := n + 1;
    }
  }

  /**
   * `dynamic_programming`: the ranked selection frontier for the parts
   * ordered most frequent first, ties by ascending index.
   */
  method SelectionFrontier(m: Matrix) returns (results: seq<(nat, nat)>)
    ensures |results| == m.cols + 1
    ensures forall n | 0 <= n <= m.cols ::
              results[n] == (n, |BuildableWith(m, Selected(PartOrder(m, Descending), n))|)
  {
    var sortedPartIndices := PartOrder(m, Descending);
    results := RankedFrontier(m, sortedPartIndices);
  }
}

=== FILE: sets.dfy ===
/** Facts about finite sets and duplicate-free sequences used throughout the model. */
module Sets {

  /** No element occurs twice. */
  predicate Distinct<T(==)>(s: seq<T>) {
    forall i, j | 0 <= i < j < |s| :: s[i] != s[j]
  }

  /** The integers `0 <= i < n`. */
  function Below(n: nat): (s: set<nat>)
    ensures forall i: nat :: i in s <==> i < n
    ensures |s| == n
  {
    if n == 0 then {} else
      var s := Below(n - 1) + {n - 1};
      assert n - 1 !in Below(n - 1);
      s
  }

  /** Any set of naturals below `n` has at most `n` members. */
  lemma {:induction false} SubsetOfBelow(s: set<nat>, n: nat)
    requires forall i | i in s :: i < n
    ensures |s| <= n
  {
    SubsetCardinality(s, Below(n));
  }

  /** Removing a subset removes exactly its members from the count. */
  lemma {:induction false} DifferenceCardinality<T>(a: set<T>, b: set<T>)
    requires b <= a
    ensures |a - b| == |a| - |b|
    decreases |b|
  {
    if b != {} {
      var x :| x in b;
      DifferenceCardinality(a - {x}, b - {x});
      assert a - b == (a - {x}) - (b - {x});
    }
  }

  /** A subset is no larger than its superset. */
  lemma {:induction false} SubsetCardinality<T>(a: set<T>, b: set<T>)
    requires a <= b
    ensures |a| <= |b|
    decreases |b|
  {
    if a != {} {
      var x :| x in a;
      SubsetCardinality(a - {x}, b - {x});
    }
  }

  /** A distinct sequence has as many elements as its set of elements. */
  lemma {:induction false} DistinctCardinality<T>(a: seq<T>)
    requires Distinct(a)
    ensures |set x | x in a| == |a|
  {
    if a != [] {
      DistinctCardinality(a[1..]);
      assert (set x | x in a) == (set x | x in a[1..]) + {a[0]};
      assert a[0] !in a[1..];
    }
  }
}
